=== FILE: README.md ===
# topo: call-tree reconstruction and per-function statistics

`topo-collect.py` traces the calls of one function with DTrace. Each call
prints two lines:

- an entry line: name, run id, call id, thread id, depth, start time;
- a return line: name, run id, call id, total time.

Once the tracer has finished, the collector does the following:

- splits the output into whitespace-separated fields;
- sorts the lines by run id and groups them by run;
- rebuilds one call tree per run (`RunTree.build`);
- computes one statistics record per function per tree (`RunTree.stats`, built on `preorder_map`);
- concatenates the records of all trees, sorts them by function name, groups them and folds each group with `FuncStats.merge` (`common.py`);
- sorts the merged records by the floor mean of their call depths.

This project models that pipeline in Dafny and proves what each step
promises. It has one module per concern:

| file | module | models |
|---|---|---|
| `wrappers.dfy` | `Wrappers` | `Option` and `Result` |
| `stats.dfy` | `Stats` | the `FuncStats` record, `merge`, the field order of `__repr__`, and record summaries (sums, depth multiset, caller and callee sets) |
| `trace_lines.dfy` | `TraceLines` | the entry and return lines, `int()` on their fields, `build`'s comparator |
| `sorting.dfy` | `Sorting` | `list.sort` as an in-place insertion sort under a total preorder, and `itertools.groupby` |
| `run_tree.dfy` | `RunTrees` | `Node`, `from_strings`, and `RunTree.build` with its stack of open ancestors |
| `traversal.dfy` | `Traversals` | `preorder_map` and `postorder_map` |
| `run_stats.dfy` | `RunStats` | `RunTree.stats`: `create_stat` and the `grouped_stats` dictionary |
| `collect.dfy` | `Collect` | the data part of `main` |

## How the model represents the source

**Nodes.** A node is a value. The tree is an arena, `RunTree(runId, root, nodes)`:

- `nodes` are the fused nodes in call order;
- `parent` is an `Option` of an index into `nodes`;
- `children` is a sequence of indices.

`build` mutates `node.parent` and `children` in place. The model returns the
new arena. `Linked` states the links:

- a node's parent is the nearest earlier node that is shallower than it;
- a parent's children are exactly the nodes that name it as parent, in call order.

**Lines.** `from_strings` converts fields with `int()`. The model does this
once per line, in `DecodeLine`. A line decodes when:

- it has six fields (an entry) or four fields (a return);
- every field after the name is an integer numeral, with an optional sign.

**Sorting.** `list.sort` is an in-place sort on an `array`. The model leaves
its stability unproved, so it states results up to reordering:

- a sorted sequence is specified as sorted and a permutation;
- a merged record is specified by `Abstract`, which gives its sums, the multiset of its depths, and the sets of its callers and callees.

## Model

| member | source | states |
|---|---|---|
| Stats.Merge | common.py:11-20 | `merge` is defined exactly when the names agree. The result has the receiver's name. Total time, contrib time and call count are the sums of the inputs'. Depths are the receiver's followed by the argument's, so the length is the sum of the lengths. Callers and callees are duplicate-free lists whose element sets are the unions of the inputs' sets. |
| Stats.Dedup | common.py:18-19 | `list(set(xs))`: no duplicates, the same element set as `xs`, and no longer than `xs` |
| Stats.MergeAbstract | common.py:13-19 | the summary of a merged record is the sum of the inputs' summaries |
| Stats.MergeCommutative | common.py:13-19 | `a.merge(b)` and `b.merge(a)` agree on the name, on the sums, on depths as a multiset, and on callers and callees as sets |
| Stats.MergeAssociative | common.py:13-19 | merging `a` with `b` and then `c` gives the same name and summary as merging `a` with the merge of `b` and `c` |
| Stats.FoldMerge | topo-collect.py:295 | `reduce(merge, g)` over a non-empty group of one name keeps that name. Its summary is the sum of the summaries of the group's records. |
| Stats.SummaryOfPermutation | topo-collect.py:291 | records that are a permutation of each other have the same summed summary |
| Stats.ByNamePermutation | topo-collect.py:291-294 | reordering records does not change, up to order, the records of any one name |
| Stats.MachineFields | common.py:32-40 | the machine form lists seven fields: name, total time, contrib time, depths, call count, callers, callees, at positions 0 to 6 |
| TraceLines.ParseInt | topo-collect.py:158-161 | `int(token)` succeeds exactly on an optional sign followed by one or more digits, and yields their decimal value with that sign |
| TraceLines.ParseFormatInt | topo-collect.py:158-161 | a printed integer reads back as itself |
| TraceLines.DecodeLine | topo-collect.py:158-161 | a line decodes iff it has 6 or 4 fields and every field after the name is a numeral. The name is the first field. Run id and call id are the `int()` of fields 1 and 2. An entry line's thread, depth and start are the `int()` of fields 3, 4 and 5. A return line's total is the `int()` of field 3. |
| TraceLines.DecodeEncodeLine | topo-collect.py:158-161 | every line the tracer prints decodes back to itself |
| TraceLines.CallOrderIsBuildComp | topo-collect.py:218-224 | the order used for `vals.sort(comp)` is exactly "comp(x, y) <= 0": by integer call id, and for one call id the 6-field entry line before the 4-field return line (strictly) |
| RunTrees.CallOrderTotal | topo-collect.py:218-224 | `comp` is a total preorder, so sorting by it is well defined |
| RunTrees.FuseGroup | topo-collect.py:228-232 | a `(run, call)` group fuses iff it has a second line and its first line is an entry. Name, run, call, thread, depth and start then come from the first line, and total time is the last field of the second. |
| RunTrees.StackPushChild | topo-collect.py:237-243 | after popping every entry at least as deep as the node, the new top is the nearest earlier shallower node. Pushing the node keeps the stack shape: strictly increasing indices, and every node between two neighbours at least as deep as the upper one. |
| RunTrees.RootStep | topo-collect.py:233-235 | a call-0 node becomes the root and is pushed, with no parent, and the loop invariant is kept |
| RunTrees.StackDeepensRoot | topo-collect.py:233-235 | pushing a call-0 node, without popping, keeps the stack's depths strictly increasing above every entry that is not a root |
| RunTrees.StackDeepensPush | topo-collect.py:237-243 | pushing a node onto the stack popped down to a shallower top keeps the stack's depths strictly increasing above every entry that is not a root |
| RunTrees.AttachStep | topo-collect.py:237-243 | attaching a node under the stack top as its parent's last child, then pushing it, keeps the loop invariant: fused prefix, root, placed parents, links, stack shape, and depths strictly increasing up the stack above every entry that is not a root |
| RunTrees.NoParentNotLinkable | topo-collect.py:237-238 | if the stack runs empty while popping for a non-root node, the run's nodes are not linkable |
| RunTrees.LinkOne | topo-collect.py:229-243 | one iteration of `build`'s loop: an error only when the run cannot be built, otherwise the loop invariant for one more group |
| RunTrees.LinkDone | topo-collect.py:245 | when every group has been linked, the arena is built from the fused nodes, with the root the last call-0 node |
| RunTrees.Link | topo-collect.py:226-245 | the loop succeeds iff every group fuses and the nodes are linkable. On success the tree is built from the fused nodes: same nodes in order, parents and children as `Linked` says, no parent exactly for call id 0. |
| RunTrees.BuiltFromValid | topo-collect.py:240-241 | a built arena is a valid tree: each parent comes before its child and lists it among its children |
| RunTrees.Build | topo-collect.py:216-245 | `build` sorts the lines in place into call order as a permutation. It succeeds iff all groups fuse and link, and its tree is then valid and built from them. |
| Traversals.PreorderSound | topo-collect.py:171-174 | every node `preorder_map` visits from `v` lies in the subtree of `v` |
| Traversals.PreorderComplete | topo-collect.py:171-174 | every node of the subtree of `v` is visited |
| Traversals.PreorderOncePerNode | topo-collect.py:168-177 | preorder visits each node of the subtree exactly once and nothing else |
| Traversals.PostorderPermutesPreorder | topo-collect.py:168-188 | postorder visits the same nodes as preorder, as a multiset |
| Traversals.DescendsFromFirst | topo-collect.py:237-243 | when every node after the first has a parent, every node lies in the subtree of the first |
| Traversals.PreorderCoversAll | topo-collect.py:168-177 | when every node lies in the root's subtree, `preorder_map` from the root has one entry per node of the arena |
| Traversals.PostorderOncePerNode | topo-collect.py:179-188 | postorder visits each node of the subtree exactly once and nothing else |
| Traversals.MapNodes | topo-collect.py:172 | applying `fn` to a node list gives one result per node, in order |
| Traversals.PreorderMap | topo-collect.py:168-177 | `preorder_map(fn)` is `fn` of the preorder from the root: the root first, then each child's subtree in child order |
| Traversals.PreorderDescent | topo-collect.py:171-174 | `descent` appends `fn` of the preorder of `v` to the captured result |
| Traversals.PostorderMap | topo-collect.py:179-188 | `postorder_map(fn)` is `fn` of the postorder from the root: each child's subtree in child order, the root last |
| Traversals.PostorderDescent | topo-collect.py:182-185 | `descent` appends `fn` of the postorder of `v` to the captured result |
| Traversals.PostorderChildren | topo-collect.py:183-184 | the loop over the children appends their subtrees' postorder in child order |
| RunStats.CreateStat | topo-collect.py:191-195 | each node's record has: the node's name and total; contrib time equal to total minus the children's totals, unclamped; depths `[depth]`; call count 1; callers `[parent.name]`, or empty at a root; and the children's names in order as callees |
| RunStats.StatRecords | topo-collect.py:197 | one record per listed node, in order |
| RunStats.SelfTimesTelescope | topo-collect.py:192 | over a subtree, the self times add up to the total time of its top node |
| RunStats.ContribIsSelfTimes | topo-collect.py:192 | the summed contrib times of the records are the self times of their nodes |
| RunStats.AddRecord | topo-collect.py:200-204 | one step of the dictionary loop keeps the invariant. Keys are the names seen so far, each listed once (the model does not fix their order, as the source's hash order does not). Each value is the merge-fold of that name's records so far. The values' summaries add up to those records'. |
| RunStats.FoldRecords | topo-collect.py:199-204 | the whole loop leaves the dictionary with that invariant for all records |
| RunStats.GroupedValues | topo-collect.py:206 | `grouped_stats.values()` has distinct names, exactly the names of the records, and each value is the merge-fold of its name's records. The values' summaries add up to the records'. |
| RunStats.GroupByName | topo-collect.py:199-206 | the dictionary fold returns one record per distinct name, each the merge-fold of that name's records in order |
| RunStats.TreeStats | topo-collect.py:190-206 | `stats()` returns one record per distinct function name of the tree, each the merge-fold of that name's per-node records in preorder |
| RunStats.StatsCallCount | topo-collect.py:197-206 | the call counts of `stats()` add up to the number of nodes the preorder from the root visits, which for a built run is every node (`Collect.RunStatsCallCount`) |
| RunStats.StatsContribTime | topo-collect.py:190-206 | the contrib times of `stats()` add up to the root's total time |
| Sorting.InsertionSort | topo-collect.py:224 | `list.sort(comp)` in place: sorted by the comparator and a permutation of the input |
| Sorting.GroupBy | topo-collect.py:228 | `groupby` gives the maximal runs of consecutive equal keys: non-empty groups, constant key within a group, different keys for neighbours, flattening back to the input |
| Sorting.SortedGroupKeysDistinct | topo-collect.py:282 | grouping a sequence sorted by key gives each key to one group only |
| Sorting.SortedGroupHeadsOrdered | topo-collect.py:279-282 | grouping a key-sorted sequence gives groups in key order |
| Collect.DecodeAll | topo-collect.py:276 | decoding the output succeeds iff every line decodes, and gives one line per input line, in order |
| Collect.DecodeAllError | topo-collect.py:276 | a decoding error names the first line that does not decode, with that line's error |
| Collect.RunOrderTotal | topo-collect.py:277-279 | `main`'s comparator by integer run id is a total preorder |
| Collect.RunGroups | topo-collect.py:282 | after sorting by run id, each group holds one run, and the groups' run ids strictly ascend |
| Collect.SplitRuns | topo-collect.py:276-282 | the runs hold exactly the decoded lines, as a multiset. Each run has one run id, and the runs come in strictly ascending run id, the order in which `main`'s loop reaches them. |
| Collect.BuildRun | topo-collect.py:283 | `RunTree.build(list(g))` sorts the run's lines. It succeeds iff they fuse and link. The tree then carries that run's id and is a single tree: its root is the first node, and every node lies in the root's subtree. The preorder from the root lists all nodes, one per distinct call id of the run. |
| Collect.BuildRuns | topo-collect.py:281-284 | one tree per run, in order. On error, every run before the failing one in `runs` built, and the failing run's id is the error. `Collect` passes the runs in ascending run id (`Collect.SplitRuns`), so these are the runs of smaller run id. |
| Collect.RunGroupCalls | topo-collect.py:224-228 | after `build`'s sort, the `(run, call)` groups of one run's lines have pairwise distinct call ids |
| Collect.GroupOfCall | topo-collect.py:224-228 | every call id of a run's lines heads one of the `(run, call)` groups of its sorted lines |
| Collect.GroupCalls | topo-collect.py:228-232 | one node per group gives distinct call ids, exactly the call ids of the run's lines |
| Collect.BuiltRunCalls | topo-collect.py:228-235 | the nodes of a tree built from one run have distinct call ids, exactly the call ids of the run |
| Collect.BuiltRunConnected | topo-collect.py:233-245 | a tree built from one run has the first node (call id 0) as its root, every node in the root's subtree, and a preorder from the root that lists every node |
| Collect.RunStatsCallCount | topo-collect.py:197-206 | the call counts of `stats()` on a tree built from one run add up to the number of its nodes, one per call of the run |
| Collect.StatsOfTrees | topo-collect.py:286-287 | the concatenated `stats()` of all trees cover the same names as the per-node records of all trees, with the same summary for every name |
| Collect.NameOrderTotal | topo-collect.py:289-291 | `cmp` on names is a total preorder and antisymmetric on strings |
| Collect.ByNameOfGroup | topo-collect.py:294 | after sorting by name, the group of a name holds all records of that name |
| Collect.MergedSummaries | topo-collect.py:293-296 | each merged record's summary is the sum over all records of its name |
| Collect.FoldGroups | topo-collect.py:293-296 | one merged record per group, the `reduce(merge)` of that group |
| Collect.MergeByName | topo-collect.py:289-296 | the result has one record per distinct name and the same names as the input. Each record's summary is the sum over all input records of its name. |
| Collect.MergedCounts | topo-collect.py:295 | a merged record has as many depths as calls, one per call of its name, and at least one |
| Collect.SortByDepth | topo-collect.py:298-300 | sorted ascending by floor mean depth, as a permutation of the merged records |
| Collect.MergedReport | topo-collect.py:286-296 | the merged records form the report: one record per function name of all runs, each summing every call of that function in every run, with one depth per call |
| Collect.ReportPermutation | topo-collect.py:300 | reordering the report keeps it a report |
| Collect.Collect | topo-collect.py:276-300 | the whole pipeline. A line that does not decode is the error; otherwise lines are split into runs, one per run id. The result succeeds iff every run builds, and is then the report of the trees, sorted by mean depth. |

## Left out

- The DTrace script template, temp-file handling, `Popen`, option parsing and printing in `main` are I/O. The tracer's output, already split into fields, is the model's input. Dropping empty lines happens before that point.
- `topo-draw.py` is drawing code: graphics calls, floating point and randomness.
- `FuncStats.normalize`, `from_file` and `create_index` are not part of this model; their definitions are not in `common.py`.
- The `__str__` methods of `Node`, `RunTree` and `FuncStats` are human-readable text.
- `__repr__` is modelled as its structured field list (`MachineFields`), not as text. The name is printed unquoted, so the text has no parse-back. `FromMachineFields` and `MachineFieldsRoundTrip` are only a proof device that shows the field list determines the record.
- DecodeLine: `from_strings` converts `args[1..6]` in place with a loop, and `comp` calls `int()` on the call id. The model decodes every numeric field once, at the boundary, instead of with that loop. The model rejects the whole output when any line has a field after the name that is not a numeral, and reports the first such line. The source raises only on the fields it converts: the run id (in `main`'s comparator), the call id (in `build`'s comparator), fields 1 to 5 of the first line of a call group and the last field of its second line (`from_strings`). It accepts output whose other fields are not numerals: the remaining fields of a group's second line, and every line after the second in a group. For example, the run `f 0 0 1 0 5`, `f 0 0 9`, `f 0 0 x` builds a one-node tree in the source, while the model reports `x` as an error.
- DecodeLine: a line with a field count other than 6 or 4 is an error. In the source such a line fails later, or is silently misread.
- CallOrderIsBuildComp, RunGroups: the source groups lines by the field strings (`x[1:3]`, `x[1]`) but sorts them by `int()` of those strings. The model keys both on the integers, so a non-canonical numeral such as `07` next to `7` is treated as one id.
- Stats.Merge: `list(set(...))` has hash order. The model keeps callers and callees duplicate-free in first-occurrence order, and every contract speaks of their element sets only.
- RunStats.GroupByName: Python 2 `dict.values()` has hash order. The model returns the values in first-insertion order. Only the set of names and the per-name records are stated.
- Sorting.InsertionSort: Python's `list.sort` is stable, and the contract does not state it. It states only that the result is sorted and a permutation. Where the source's output depends on the order among equal elements, the model states it only up to that order (the next two lines).
- MergeByName: the merged records are stated up to `Abstract` (sums, depth multiset, caller and callee sets), not field by field, because the stability of `list.sort` is not proved.
- SortByDepth: states sortedness and permutation but not stability, so the order among records of equal mean depth is left open.
- Collect: the sorted line orders, runs and trees are ghost outputs that witness the contract. The returned records are specified by `Report` and by sortedness.
- Collect.MeanDepth: the source divides by zero on a record without depths. The model returns 0 there, and `Report` shows that no merged record is in that case.
- RunTrees.Build: the source's mutable `Node` objects become an arena of values, so object identity and aliasing of nodes are not modelled.

=== FILE: collect.dfy ===
/**
 * The collector's `main` once the tracer has finished: its output lines,
 * split into fields, are decoded, sorted and grouped by run id; every run
 * becomes a `RunTree`; the statistics of all trees are concatenated, sorted
 * and grouped by function name, each group is merged into one record, and
 * the merged records are sorted by mean call depth.
 */
module Collect {
  import opened Wrappers
  import opened Sorting
  import opened Stats
  import opened TraceLines
  import opened RunTrees
  import opened RunStats
  import opened Traversals

  datatype CollectError =
    | BadLine(index: nat, lineError: LineError)  // line `index` does not decode
    | BadRun(run: int, buildError: BuildError)   // `RunTree.build` fails on the lines of run `run`

  /** Decodes every line of the tracer's output; the first line that does not decode is the error. */
  function DecodeAll(out: seq<seq<string>>): (r: Result<seq<Line>, CollectError>)
    ensures r.Ok? <==> forall i :: 0 <= i < |out| ==> DecodeLine(out[i]).Ok?
    ensures r.Ok? ==> |r.value| == |out| && forall i :: 0 <= i < |out| ==> DecodeLine(out[i]) == Ok(r.value[i])
    ensures r.Err? ==> r.error.BadLine?
  {
    if |out| == 0 then Ok([])
    else
      match DecodeLine(out[0])
      case Err(e) => Err(BadLine(0, e))
      case Ok(l) =>
        assert forall i :: 1 <= i < |out| ==> out[i] == out[1..][i - 1];
        match DecodeAll(out[1..])
        case Err(e) => Err(BadLine(e.index + 1, e.lineError))
        case Ok(ls) => Ok([l] + ls)
  }

  /** The error names the first line that does not decode, and why. */
  lemma {:induction false} DecodeAllError(out: seq<seq<string>>)
    requires DecodeAll(out).Err?
    ensures var e := DecodeAll(out).error;
      && e.index < |out| && DecodeLine(out[e.index]) == Err(e.lineError)
      && forall i :: 0 <= i < e.index ==> DecodeLine(out[i]).Ok?
  {
    if DecodeLine(out[0]).Ok? {
      DecodeAllError(out[1..]);
      var e := DecodeAll(out[1..]).error;
      assert out[e.index + 1] == out[1..][e.index];
      assert forall i :: 1 <= i < e.index + 1 ==> out[i] == out[1..][i - 1];
    }
  }

  // ---------------------------------------------------------------- runs

  /** The groupby key of `main`: a line's run id. */
  function RunOf(l: Line): int
  {
    l.run
  }

  predicate IntLe(x: int, y: int)
  {
    x <= y
  }

  /** All lines of `g` belong to one run. */
  predicate OneRun(g: seq<Line>)
  {
    |g| > 0 && forall i :: 0 <= i < |g| ==> g[i].run == g[0].run
  }

  /** Grouping lines sorted by run id gives one group per run id, each of one run, in ascending run id. */
  lemma RunGroups(sorted: seq<Line>, runs: seq<seq<Line>>)
    requires SortedBy(sorted, RunOrder) && runs == GroupBy(sorted, RunOf)
    ensures forall k :: 0 <= k < |runs| ==> OneRun(runs[k])
    ensures forall k, l :: 0 <= k < l < |runs| ==> runs[k][0].run < runs[l][0].run
  {
    assert Antisymmetric(IntLe);
    SortedGroupKeysDistinct(sorted, RunOf, IntLe);
    assert GroupKeysDistinct(runs, RunOf);
    SortedGroupHeadsOrdered(sorted, RunOf, IntLe);
  }

  lemma RunOrderTotal()
    ensures TotalPreorder(RunOrder)
  {
  }

  /** `runs` are the lines grouped by run: one group per run id, in ascending run id, together all the lines. */
  ghost predicate RunsOf(lines: seq<Line>, runs: seq<seq<Line>>)
  {
    && multiset(Flatten(runs)) == multiset(lines)
    && (forall k :: 0 <= k < |runs| ==> OneRun(runs[k]))
    && (forall k, l :: 0 <= k < l < |runs| ==> runs[k][0].run < runs[l][0].run)
  }

  /** `line_vals.sort(comp)` by run id, then `groupby` on the run id. */
  method SplitRuns(lines: seq<Line>) returns (runs: seq<seq<Line>>)
    ensures RunsOf(lines, runs)
  {
    var lineVals := new Line[|lines|](i requires 0 <= i < |lines| => lines[i]);
    assert lineVals[..] == lines;
    RunOrderTotal();
    InsertionSort(lineVals, RunOrder);
    runs := GroupBy(lineVals[..], RunOf);
    RunGroups(lineVals[..], runs);
  }

  /** `s` is an order `build` may sort the lines `g` of a run into: by call id, entry line first. */
  ghost predicate SortedRun(g: seq<Line>, s: seq<Line>)
  {
    SortedBy(s, CallOrder) && multiset(s) == multiset(g)
  }

  /** `build` succeeds on lines sorted as `s`. */
  ghost predicate Builds(s: seq<Line>)
  {
    AllFuse(GroupBy(s, Key)) && Linkable(Fused(GroupBy(s, Key)))
  }

  /** A tree built from the lines of one run carries that run's id. */
  lemma BuiltRunId(g: seq<Line>, s: seq<Line>, t: RunTree)
    requires OneRun(g) && multiset(s) == multiset(g)
    requires AllFuse(GroupBy(s, Key)) && BuiltFrom(Fused(GroupBy(s, Key)), t)
    ensures t.runId == g[0].run
  {
    var groups := GroupBy(s, Key);
    FlattenMember(groups, t.root, 0);
    var x := groups[t.root][0];
    assert x in multiset(g);
  }

  /** `RunTree.build(list(g))` on the lines of one run; `s` is the list after `build` sorted it in place. */
  method BuildRun(g: seq<Line>) returns (r: Result<RunTree, BuildError>, s: seq<Line>)
    requires OneRun(g)
    ensures SortedRun(g, s)
    ensures r.Ok? <==> Builds(s)
    ensures r.Ok? ==> BuiltRun(g, s, r.value)
    ensures r.Ok? ==>
      && r.value.root == 0 && |Preorder(r.value, r.value.root)| == |r.value.nodes|
      && (forall i :: 0 <= i < |r.value.nodes| ==> Descends(r.value, i, r.value.root))
      && (forall i, j :: 0 <= i < j < |r.value.nodes| ==> r.value.nodes[i].call != r.value.nodes[j].call)
      && (set i | 0 <= i < |r.value.nodes| :: r.value.nodes[i].call) == CallIds(g)
  {
    var vals := new Line[|g|](i requires 0 <= i < |g| => g[i]);
    assert vals[..] == g;
    r := Build(vals);
    s := vals[..];
    if r.Ok? {
      BuiltRunId(g, s, r.value);
      BuiltRunConnected(g, s, r.value);
      BuiltRunCalls(g, s, r.value);
    }
  }

  /** `t` was built from the lines `g` of one run, which `build` sorted as `s`. */
  ghost predicate BuiltRun(g: seq<Line>, s: seq<Line>, t: RunTree)
  {
    && OneRun(g) && SortedRun(g, s) && Builds(s)
    && BuiltFrom(Fused(GroupBy(s, Key)), t)
    && ValidTree(t) && t.runId == g[0].run
  }

  /** The call ids of the lines of a run. */
  function CallIds(g: seq<Line>): set<int>
  {
    set l | l in g :: l.call
  }

  /** Keys ordered by run id, then by call id. */
  predicate KeyLe(a: (int, int), b: (int, int))
  {
    a.0 < b.0 || (a.0 == b.0 && a.1 <= b.1)
  }

  /** The sorted lines of one run form one `(run, call)` group per call id. */
  lemma RunGroupCalls(g: seq<Line>, s: seq<Line>)
    requires OneRun(g) && SortedRun(g, s)
    ensures forall l :: l in s ==> l.run == g[0].run
    ensures var groups := GroupBy(s, Key);
      forall i, j :: 0 <= i < j < |groups| ==> groups[i][0].call != groups[j][0].call
  {
    forall l | l in s
      ensures l.run == g[0].run
    {
      assert l in multiset(g);
    }
    forall i, j | 0 <= i < j < |s|
      ensures KeyLe(Key(s[i]), Key(s[j]))
    {
      assert s[i] in s && s[j] in s;
    }
    assert Antisymmetric(KeyLe);
    SortedGroupKeysDistinct(s, Key, KeyLe);
    var groups: seq<seq<Line>> := GroupBy(s, Key);
    forall i, j | 0 <= i < j < |groups|
      ensures groups[i][0].call != groups[j][0].call
    {
      FlattenMember(groups, i, 0);
      FlattenMember(groups, j, 0);
    }
  }

  /** The nodes of a built tree are the `(run, call)` groups of its sorted lines, in order. */
  lemma BuiltRunGroups(g: seq<Line>, s: seq<Line>, t: RunTree)
    requires BuiltRun(g, s, t)
    ensures |t.nodes| == |GroupBy(s, Key)|
    ensures forall i :: 0 <= i < |t.nodes| ==> t.nodes[i].call == GroupBy(s, Key)[i][0].call
  {
    var ns := Fused(GroupBy(s, Key));
    forall i | 0 <= i < |t.nodes|
      ensures t.nodes[i].call == GroupBy(s, Key)[i][0].call
    {
      assert Unlink(t.nodes[i]) == ns[i];
    }
  }

  /** One node per group of a run's sorted lines: distinct call ids, exactly those of the run. */
  lemma GroupCalls(g: seq<Line>, s: seq<Line>, nodes: seq<Node>)
    requires OneRun(g) && SortedRun(g, s)
    requires |nodes| == |GroupBy(s, Key)|
    requires forall i :: 0 <= i < |nodes| ==> nodes[i].call == GroupBy(s, Key)[i][0].call
    ensures forall i, j :: 0 <= i < j < |nodes| ==> nodes[i].call != nodes[j].call
    ensures (set i | 0 <= i < |nodes| :: nodes[i].call) == CallIds(g)
  {
    RunGroupCalls(g, s);
    forall c | c in CallIds(g)
      ensures c in (set i | 0 <= i < |nodes| :: nodes[i].call)
    {
      var k := GroupOfCall(g, s, c);
      assert nodes[k].call == c;
    }
    forall i | 0 <= i < |nodes|
      ensures nodes[i].call in CallIds(g)
    {
      FlattenMember(GroupBy(s, Key), i, 0);
      assert GroupBy(s, Key)[i][0] in multiset(g);
    }
  }

  /** Every call id of a run heads one of the groups of its sorted lines. */
  lemma GroupOfCall(g: seq<Line>, s: seq<Line>, c: int) returns (k: nat)
    requires OneRun(g) && SortedRun(g, s) && c in CallIds(g)
    ensures k < |GroupBy(s, Key)| && GroupBy(s, Key)[k][0].call == c
  {
    var groups := GroupBy(s, Key);
    var l :| l in g && l.call == c;
    assert l in multiset(s);
    var p :| 0 <= p < |s| && s[p] == l;
    var i;
    k, i := FlattenIndex(groups, p);
    assert Key(groups[k][i]) == Key(groups[k][0]);
  }

  /** The nodes of a tree built from one run have distinct call ids, exactly the call ids of the run. */
  lemma BuiltRunCalls(g: seq<Line>, s: seq<Line>, t: RunTree)
    requires BuiltRun(g, s, t)
    ensures forall i, j :: 0 <= i < j < |t.nodes| ==> t.nodes[i].call != t.nodes[j].call
    ensures (set i | 0 <= i < |t.nodes| :: t.nodes[i].call) == CallIds(g)
  {
    BuiltRunGroups(g, s, t);
    GroupCalls(g, s, t.nodes);
  }

  /**
   * A tree built from the lines of one run is a single tree: its root is the
   * first node, every node lies in the root's subtree, and the preorder from
   * the root lists every node of the arena.
   */
  lemma BuiltRunConnected(g: seq<Line>, s: seq<Line>, t: RunTree)
    requires BuiltRun(g, s, t)
    ensures t.root == 0
    ensures forall i :: 0 <= i < |t.nodes| ==> Descends(t, i, t.root)
    ensures |Preorder(t, t.root)| == |t.nodes|
  {
    var ns := Fused(GroupBy(s, Key));
    BuiltRunCalls(g, s, t);
    assert ns[0].call == 0;
    assert t.nodes[0].call == ns[0].call && t.nodes[t.root].call == ns[t.root].call;
    forall j | 0 < j < |t.nodes|
      ensures t.nodes[j].parent.Some?
    {
      assert t.nodes[j].call == ns[j].call;
    }
    forall i | 0 <= i < |t.nodes|
      ensures Descends(t, i, t.root)
    {
      DescendsFromFirst(t, i);
    }
    PreorderCoversAll(t);
  }

  /** The call counts of `stats()` on a tree built from one run add up to the number of its calls. */
  lemma RunStatsCallCount(g: seq<Line>, s: seq<Line>, t: RunTree, vals: seq<FuncStats>)
    requires BuiltRun(g, s, t) && SummaryOf(vals) == SummaryOf(Records(t))
    ensures SummaryOf(vals).callCount == |t.nodes|
  {
    StatsCallCount(t, vals);
    BuiltRunConnected(g, s, t);
  }

  /** The first `|trees|` runs are built: `trees[j]` from `runs[j]`, sorted as `sorted[j]`. */
  ghost predicate BuiltRuns(runs: seq<seq<Line>>, sorted: seq<seq<Line>>, trees: seq<RunTree>)
  {
    && |trees| == |sorted| <= |runs|
    && forall j :: 0 <= j < |trees| ==> BuiltRun(runs[j], sorted[j], trees[j])
  }

  lemma BuiltRunsSnoc(runs: seq<seq<Line>>, sorted: seq<seq<Line>>, trees: seq<RunTree>, s: seq<Line>, t: RunTree)
    requires BuiltRuns(runs, sorted, trees) && |trees| < |runs|
    requires BuiltRun(runs[|trees|], s, t)
    ensures BuiltRuns(runs, sorted + [s], trees + [t])
  {
    forall j | 0 <= j < |trees| + 1
      ensures BuiltRun(runs[j], (sorted + [s])[j], (trees + [t])[j])
    {
      if j < |trees| {
        assert (sorted + [s])[j] == sorted[j] && (trees + [t])[j] == trees[j];
      }
    }
  }

  /** The runs visited so far were sorted as `build` sorts and all built. */
  lemma BuiltRunsSorted(runs: seq<seq<Line>>, sorted: seq<seq<Line>>, trees: seq<RunTree>)
    requires BuiltRuns(runs, sorted, trees)
    ensures forall j :: 0 <= j < |sorted| ==> SortedRun(runs[j], sorted[j]) && Builds(sorted[j])
  {
    forall j | 0 <= j < |sorted|
      ensures SortedRun(runs[j], sorted[j]) && Builds(sorted[j])
    {
      assert BuiltRun(runs[j], sorted[j], trees[j]);
    }
  }

  /** Where the loop stops at a run that does not build. */
  lemma BuildStops(runs: seq<seq<Line>>, sorted: seq<seq<Line>>, trees: seq<RunTree>, s: seq<Line>)
    requires BuiltRuns(runs, sorted, trees) && |trees| < |runs| && SortedRun(runs[|trees|], s)
    ensures forall j :: 0 <= j < |sorted| + 1 ==> SortedRun(runs[j], (sorted + [s])[j])
    ensures forall j :: 0 <= j < |sorted| ==> Builds((sorted + [s])[j])
  {
    BuiltRunsSorted(runs, sorted, trees);
    forall j | 0 <= j < |sorted| + 1
      ensures SortedRun(runs[j], (sorted + [s])[j])
    {
      if j < |sorted| {
        assert (sorted + [s])[j] == sorted[j];
      }
    }
  }

  /**
   * The loop of `main` over the runs, building one tree per run; the source
   * raises at the first run whose lines do not build. `sorted` holds the
   * order each visited run's lines were sorted into.
   */
  method BuildRuns(runs: seq<seq<Line>>) returns (r: Result<seq<RunTree>, CollectError>, sorted: seq<seq<Line>>)
    requires forall k :: 0 <= k < |runs| ==> OneRun(runs[k])
    ensures |sorted| <= |runs| && forall k :: 0 <= k < |sorted| ==> SortedRun(runs[k], sorted[k])
    ensures r.Ok? <==> |sorted| == |runs| && forall k :: 0 <= k < |sorted| ==> Builds(sorted[k])
    ensures r.Err? ==> && 0 < |sorted| && !Builds(sorted[|sorted| - 1])
                       && OneRun(runs[|sorted| - 1]) && r.error.BadRun? && r.error.run == runs[|sorted| - 1][0].run
    ensures r.Err? ==> forall k :: 0 <= k < |sorted| - 1 ==> Builds(sorted[k])
    ensures r.Ok? ==> BuiltRuns(runs, sorted, r.value) && |r.value| == |runs|
  {
    var trees: seq<RunTree> := [];
    sorted := [];
    var k := 0;
    while k < |runs|
      invariant k == |trees| && BuiltRuns(runs, sorted, trees)
    {
      var t, s := BuildRun(runs[k]);
      if t.Err? {
        BuildStops(runs, sorted, trees, s);
        sorted := sorted + [s];
        r := Err(BadRun(runs[k][0].run, t.error));
        return;
      }
      BuiltRunsSnoc(runs, sorted, trees, s, t.value);
      sorted := sorted + [s];
      trees := trees + [t.value];
      k := k + 1;
    }
    BuiltRunsSorted(runs, sorted, trees);
    r := Ok(trees);
  }

  // ---------------------------------------------------------------- statistics of all runs

  /** The per-node records of all trees, tree after tree, each in preorder. */
  ghost function AllRecords(trees: seq<RunTree>): seq<FuncStats>
    requires forall k :: 0 <= k < |trees| ==> ValidTree(trees[k])
  {
    if |trees| == 0 then [] else AllRecords(trees[..|trees| - 1]) + Records(trees[|trees| - 1])
  }

  /** Function by function, the records `vals` add up to what the records `recs` add up to. */
  ghost predicate Summarises(vals: seq<FuncStats>, recs: seq<FuncStats>)
  {
    forall n :: SummaryOf(ByName(vals, n)) == SummaryOf(ByName(recs, n))
  }

  lemma NamesConcat(a: seq<FuncStats>, b: seq<FuncStats>)
    ensures Names(a + b) == Names(a) + Names(b)
  {
    assert forall f :: f in a + b <==> f in a || f in b;
  }

  /** No record of `fs` is named `n`. */
  lemma ByNameNone(fs: seq<FuncStats>, n: string)
    requires forall i :: 0 <= i < |fs| ==> fs[i].name != n
    ensures ByName(fs, n) == []
  {
  }

  /** Every record of `fs` is named `n`. */
  lemma {:induction false} ByNameAll(fs: seq<FuncStats>, n: string)
    requires forall i :: 0 <= i < |fs| ==> fs[i].name == n
    ensures ByName(fs, n) == fs
  {
    if |fs| > 0 {
      ByNameAll(fs[..|fs| - 1], n);
    }
  }

  /** Among records with distinct names, a record is the only one of its name. */
  lemma {:induction false} ByNameUnique(vals: seq<FuncStats>, j: nat)
    requires j < |vals| && forall i, k :: 0 <= i < k < |vals| ==> vals[i].name != vals[k].name
    ensures ByName(vals, vals[j].name) == [vals[j]]
  {
    var n := vals[j].name;
    var front := vals[..|vals| - 1];
    if j == |vals| - 1 {
      assert forall i :: 0 <= i < |front| ==> front[i].name != n;
      ByNameNone(front, n);
    } else {
      assert vals[|vals| - 1].name != n;
      assert front[j] == vals[j];
      ByNameUnique(front, j);
    }
  }

  /** One record per name, each the fold of its name's records, summarises the records. */
  lemma GroupedSummarises(recs: seq<FuncStats>, vals: seq<FuncStats>)
    requires forall i, j :: 0 <= i < j < |vals| ==> vals[i].name != vals[j].name
    requires Names(vals) == Names(recs)
    requires forall j :: 0 <= j < |vals| ==>
      ByName(recs, vals[j].name) != [] && vals[j] == FoldMerge(ByName(recs, vals[j].name))
    ensures Summarises(vals, recs)
  {
    forall n
      ensures SummaryOf(ByName(vals, n)) == SummaryOf(ByName(recs, n))
    {
      if n in Names(vals) {
        var f :| f in vals && f.name == n;
        var j :| 0 <= j < |vals| && vals[j] == f;
        ByNameUnique(vals, j);
        SummaryOfSingle(vals[j]);
      }
    }
  }

  lemma SummarisesAppend(a: seq<FuncStats>, ra: seq<FuncStats>, b: seq<FuncStats>, rb: seq<FuncStats>)
    requires Summarises(a, ra) && Summarises(b, rb)
    ensures Summarises(a + b, ra + rb)
  {
    forall n
      ensures SummaryOf(ByName(a + b, n)) == SummaryOf(ByName(ra + rb, n))
    {
      ByNameAppend(a, b, n);
      ByNameAppend(ra, rb, n);
      SummaryOfAppend(ByName(a, n), ByName(b, n));
      SummaryOfAppend(ByName(ra, n), ByName(rb, n));
    }
  }

  lemma AllRecordsSnoc(trees: seq<RunTree>, k: nat)
    requires k < |trees| && forall j :: 0 <= j < |trees| ==> ValidTree(trees[j])
    ensures AllRecords(trees[..k + 1]) == AllRecords(trees[..k]) + Records(trees[k])
  {
    assert trees[..k + 1][..k] == trees[..k];
  }

  /**
   * `[tree.stats() for tree in trees]` concatenated by `reduce`: the records
   * of all trees, which name by name add up to all per-node records.
   */
  method StatsOfTrees(trees: seq<RunTree>) returns (all: seq<FuncStats>)
    requires forall k :: 0 <= k < |trees| ==> ValidTree(trees[k])
    ensures Names(all) == Names(AllRecords(trees))
    ensures Summarises(all, AllRecords(trees))
  {
    all := [];
    var k := 0;
    while k < |trees|
      invariant k <= |trees|
      invariant Names(all) == Names(AllRecords(trees[..k]))
      invariant Summarises(all, AllRecords(trees[..k]))
    {
      var vals := TreeStats(trees[k]);
      StatsStep(trees, k, all, vals);
      all := all + vals;
      k := k + 1;
    }
    assert trees[..k] == trees;
  }

  /** Appending the statistics of tree `k` extends what `all` summarises by the records of tree `k`. */
  lemma StatsStep(trees: seq<RunTree>, k: nat, all: seq<FuncStats>, vals: seq<FuncStats>)
    requires k < |trees| && forall j :: 0 <= j < |trees| ==> ValidTree(trees[j])
    requires Names(all) == Names(AllRecords(trees[..k])) && Summarises(all, AllRecords(trees[..k]))
    requires forall i, j :: 0 <= i < j < |vals| ==> vals[i].name != vals[j].name
    requires Names(vals) == Names(Records(trees[k]))
    requires forall j :: 0 <= j < |vals| ==>
      ByName(Records(trees[k]), vals[j].name) != [] && vals[j] == FoldMerge(ByName(Records(trees[k]), vals[j].name))
    ensures Names(all + vals) == Names(AllRecords(trees[..k + 1]))
    ensures Summarises(all + vals, AllRecords(trees[..k + 1]))
  {
    GroupedSummarises(Records(trees[k]), vals);
    SummarisesAppend(all, AllRecords(trees[..k]), vals, Records(trees[k]));
    NamesConcat(all, vals);
    NamesConcat(AllRecords(trees[..k]), Records(trees[k]));
    AllRecordsSnoc(trees, k);
  }

  // ---------------------------------------------------------------- merging by name

  /** Python 2's `cmp` on two names: lexicographic, a proper prefix first. */
  predicate StrLe(a: string, b: string)
  {
    |a| == 0 || (|b| > 0 && (a[0] < b[0] || (a[0] == b[0] && StrLe(a[1..], b[1..]))))
  }

  lemma {:induction false} StrLeTotal(a: string, b: string)
    ensures StrLe(a, b) || StrLe(b, a)
  {
    if |a| > 0 && |b| > 0 && a[0] == b[0] {
      StrLeTotal(a[1..], b[1..]);
    }
  }

  lemma {:induction false} StrLeTransitive(a: string, b: string, c: string)
    requires StrLe(a, b) && StrLe(b, c)
    ensures StrLe(a, c)
  {
    if |a| > 0 && a[0] == b[0] && b[0] == c[0] {
      StrLeTransitive(a[1..], b[1..], c[1..]);
    }
  }

  lemma {:induction false} StrLeAntisymmetric(a: string, b: string)
    requires StrLe(a, b) && StrLe(b, a)
    ensures a == b
  {
    if |a| > 0 {
      StrLeAntisymmetric(a[1..], b[1..]);
      assert a == [a[0]] + a[1..] && b == [b[0]] + b[1..];
    }
  }

  lemma {:induction false} StrLeReflexive(a: string)
    ensures StrLe(a, a)
  {
    if |a| > 0 {
      StrLeReflexive(a[1..]);
    }
  }

  /** The groupby key of the merging step: a record's name. */
  function NameOf(f: FuncStats): string
  {
    f.name
  }

  /** The comparator `cmp(x.name, y.name)` of the merging step. */
  predicate NameOrder(x: FuncStats, y: FuncStats)
  {
    StrLe(x.name, y.name)
  }

  lemma NameOrderTotal()
    ensures TotalPreorder(NameOrder)
    ensures Antisymmetric(StrLe)
  {
    forall x: FuncStats, y: FuncStats
      ensures NameOrder(x, y) || NameOrder(y, x)
    {
      StrLeTotal(x.name, y.name);
    }
    forall x: FuncStats, y: FuncStats, z: FuncStats | NameOrder(x, y) && NameOrder(y, z)
      ensures NameOrder(x, z)
    {
      StrLeTransitive(x.name, y.name, z.name);
    }
    forall a: string
      ensures StrLe(a, a)
    {
      StrLeReflexive(a);
    }
    forall a: string, b: string | StrLe(a, b) && StrLe(b, a)
      ensures a == b
    {
      StrLeAntisymmetric(a, b);
    }
  }

  /** Groups of one name each, with distinct names, as `groupby` yields them. */
  predicate NameGroups(groups: seq<seq<FuncStats>>)
  {
    && (forall k :: 0 <= k < |groups| ==> |groups[k]| > 0)
    && (forall k, i :: 0 <= k < |groups| && 0 <= i < |groups[k]| ==> groups[k][i].name == groups[k][0].name)
    && (forall k, l :: 0 <= k < l < |groups| ==> groups[k][0].name != groups[l][0].name)
  }

  /** A name no group carries has no records in the flattened groups. */
  lemma {:induction false} ByNameAbsent(groups: seq<seq<FuncStats>>, n: string)
    requires NameGroups(groups) && forall k :: 0 <= k < |groups| ==> groups[k][0].name != n
    ensures ByName(Flatten(groups), n) == []
  {
    if |groups| > 0 {
      ByNameAppend(groups[0], Flatten(groups[1..]), n);
      ByNameNone(groups[0], n);
      assert NameGroups(groups[1..]);
      ByNameAbsent(groups[1..], n);
    }
  }

  /** The records named like group `k`, in the flattened groups, are group `k`. */
  lemma {:induction false} ByNameOfGroup(groups: seq<seq<FuncStats>>, k: nat)
    requires NameGroups(groups) && k < |groups|
    ensures ByName(Flatten(groups), groups[k][0].name) == groups[k]
  {
    var n := groups[k][0].name;
    ByNameAppend(groups[0], Flatten(groups[1..]), n);
    assert NameGroups(groups[1..]);
    if k == 0 {
      ByNameAll(groups[0], n);
      ByNameAbsent(groups[1..], n);
    } else {
      ByNameNone(groups[0], n);
      assert groups[1..][k - 1] == groups[k];
      ByNameOfGroup(groups[1..], k - 1);
    }
  }

  /** `groupby` on records sorted by name yields one group per name. */
  lemma SortedNameGroups(sorted: seq<FuncStats>)
    requires SortedBy(sorted, NameOrder)
    ensures NameGroups(GroupBy(sorted, NameOf))
  {
    NameOrderTotal();
    SortedGroupKeysDistinct(sorted, NameOf, StrLe);
  }

  /** Each merged group adds up the records of its name. */
  lemma MergedSummaries(all: seq<FuncStats>, groups: seq<seq<FuncStats>>, merged: seq<FuncStats>)
    requires NameGroups(groups) && multiset(Flatten(groups)) == multiset(all)
    requires |merged| == |groups| && forall k :: 0 <= k < |groups| ==> merged[k] == FoldMerge(groups[k])
    ensures forall k :: 0 <= k < |merged| ==>
      && merged[k].name == groups[k][0].name && ByName(all, merged[k].name) != []
      && Abstract(merged[k]) == SummaryOf(ByName(all, merged[k].name))
  {
    forall k | 0 <= k < |merged|
      ensures merged[k].name == groups[k][0].name && ByName(all, merged[k].name) != []
      ensures Abstract(merged[k]) == SummaryOf(ByName(all, merged[k].name))
    {
      var n := groups[k][0].name;
      ByNameOfGroup(groups, k);
      ByNamePermutation(Flatten(groups), all, n);
      SummaryOfPermutation(ByName(Flatten(groups), n), ByName(all, n));
    }
  }

  /** The merged groups carry exactly the names of the records. */
  lemma MergedNames(all: seq<FuncStats>, groups: seq<seq<FuncStats>>, merged: seq<FuncStats>)
    requires NameGroups(groups) && multiset(Flatten(groups)) == multiset(all)
    requires |merged| == |groups| && forall k :: 0 <= k < |groups| ==> merged[k].name == groups[k][0].name
    ensures Names(merged) == Names(all)
  {
    forall n | n in Names(merged)
      ensures n in Names(all)
    {
      MergedNameRecorded(all, groups, merged, n);
    }
    forall n | n in Names(all)
      ensures n in Names(merged)
    {
      RecordedNameMerged(all, groups, merged, n);
    }
  }

  lemma MergedNameRecorded(all: seq<FuncStats>, groups: seq<seq<FuncStats>>, merged: seq<FuncStats>, n: string)
    requires NameGroups(groups) && multiset(Flatten(groups)) == multiset(all)
    requires |merged| == |groups| && forall k :: 0 <= k < |groups| ==> merged[k].name == groups[k][0].name
    requires n in Names(merged)
    ensures n in Names(all)
  {
    var f :| f in merged && f.name == n;
    var k :| 0 <= k < |merged| && merged[k] == f;
    ByNameOfGroup(groups, k);
    ByNamePermutation(Flatten(groups), all, n);
    assert ByName(all, n) != [];
  }

  lemma RecordedNameMerged(all: seq<FuncStats>, groups: seq<seq<FuncStats>>, merged: seq<FuncStats>, n: string)
    requires NameGroups(groups) && multiset(Flatten(groups)) == multiset(all)
    requires |merged| == |groups| && forall k :: 0 <= k < |groups| ==> merged[k].name == groups[k][0].name
    requires n in Names(all)
    ensures n in Names(merged)
  {
    ByNamePermutation(Flatten(groups), all, n);
    assert ByName(all, n) != [];
    if forall k :: 0 <= k < |groups| ==> groups[k][0].name != n {
      ByNameAbsent(groups, n);
      assert false;
    }
    var k :| 0 <= k < |groups| && groups[k][0].name == n;
    assert merged[k] in merged;
  }

  lemma {:induction false} NamesCount(fs: seq<FuncStats>)
    requires forall i, j :: 0 <= i < j < |fs| ==> fs[i].name != fs[j].name
    ensures |Names(fs)| == |fs|
  {
    if |fs| > 0 {
      var front := fs[..|fs| - 1];
      NamesCount(front);
      assert fs == front + [fs[|fs| - 1]];
      NamesAppend(front, fs[|fs| - 1]);
    }
  }

  /** The loop `for k, g in groupby(...)` appending `reduce(merge, g)` for each group. */
  method FoldGroups(groups: seq<seq<FuncStats>>) returns (merged: seq<FuncStats>)
    requires NameGroups(groups)
    ensures |merged| == |groups| && forall k :: 0 <= k < |groups| ==> merged[k] == FoldMerge(groups[k])
  {
    merged := [];
    var k := 0;
    while k < |groups|
      invariant k <= |groups| && |merged| == k
      invariant forall j :: 0 <= j < k ==> merged[j] == FoldMerge(groups[j])
    {
      merged := merged + [FoldMerge(groups[k])];
      k := k + 1;
    }
  }

  /**
   * `tree_stats.sort(comp)` by name, `groupby` on the name and
   * `reduce(merge, g)` over each group: one record per function name, each
   * adding up all records of that name.
   */
  method MergeByName(all: seq<FuncStats>) returns (merged: seq<FuncStats>)
    ensures |Names(merged)| == |merged| && Names(merged) == Names(all)
    ensures forall j :: 0 <= j < |merged| ==>
      ByName(all, merged[j].name) != [] && Abstract(merged[j]) == SummaryOf(ByName(all, merged[j].name))
  {
    var treeStats := new FuncStats[|all|](i requires 0 <= i < |all| => all[i]);
    assert treeStats[..] == all;
    NameOrderTotal();
    InsertionSort(treeStats, NameOrder);
    var groups := GroupBy(treeStats[..], NameOf);
    SortedNameGroups(treeStats[..]);
    merged := FoldGroups(groups);
    MergedSummaries(all, groups, merged);
    MergedNames(all, groups, merged);
    NamesCount(merged);
  }

  // ---------------------------------------------------------------- ordering by depth

  function Sum(xs: seq<int>): int
  {
    if |xs| == 0 then 0 else Sum(xs[..|xs| - 1]) + xs[|xs| - 1]
  }

  /**
   * `sum(x.depths)/len(x.depths)`: Python 2 integer division floors, as
   * Dafny's `/` does for a positive divisor. The source divides by zero on a
   * record without depths; no merged record has none (`Report`), so the
   * first branch is never taken.
   */
  function MeanDepth(f: FuncStats): int
  {
    if |f.depths| == 0 then 0 else Sum(f.depths) / |f.depths|
  }

  /** The comparator of the final sort: by mean depth. */
  predicate DepthOrder(x: FuncStats, y: FuncStats)
  {
    MeanDepth(x) <= MeanDepth(y)
  }

  /** `merged_stats.sort(comp)` by mean depth. */
  method SortByDepth(merged: seq<FuncStats>) returns (sorted: seq<FuncStats>)
    ensures SortedBy(sorted, DepthOrder) && multiset(sorted) == multiset(merged)
  {
    var mergedStats := new FuncStats[|merged|](i requires 0 <= i < |merged| => merged[i]);
    assert mergedStats[..] == merged;
    InsertionSort(mergedStats, DepthOrder);
    sorted := mergedStats[..];
  }

  // ---------------------------------------------------------------- the whole pipeline

  /** Each per-node record has one depth and counts one call. */
  lemma {:induction false} AllRecordsSingle(trees: seq<RunTree>)
    requires forall k :: 0 <= k < |trees| ==> ValidTree(trees[k])
    ensures forall i :: 0 <= i < |AllRecords(trees)| ==>
      |AllRecords(trees)[i].depths| == 1 && AllRecords(trees)[i].callCount == 1
  {
    if |trees| > 0 {
      var t := trees[|trees| - 1];
      AllRecordsSingle(trees[..|trees| - 1]);
      var recs := Records(t);
      forall i | 0 <= i < |recs|
        ensures |recs[i].depths| == 1 && recs[i].callCount == 1
      {
        assert recs[i] == CreateStat(t, Preorder(t, t.root)[i]);
      }
    }
  }

  /** Records with one depth each: their summary has as many depths as records. */
  lemma {:induction false} DepthCountsAddUp(fs: seq<FuncStats>)
    requires forall i :: 0 <= i < |fs| ==> |fs[i].depths| == 1
    ensures |SummaryOf(fs).depths| == |fs|
  {
    if |fs| > 0 {
      DepthCountsAddUp(fs[..|fs| - 1]);
    }
  }

  /**
   * A record adding up the calls of one function has one depth per call,
   * so its mean depth is defined.
   */
  lemma MergedCounts(recs: seq<FuncStats>, m: FuncStats)
    requires forall i :: 0 <= i < |recs| ==> |recs[i].depths| == 1 && recs[i].callCount == 1
    requires ByName(recs, m.name) != [] && Abstract(m) == SummaryOf(ByName(recs, m.name))
    ensures |m.depths| == m.callCount == |ByName(recs, m.name)| > 0
  {
    var calls := ByName(recs, m.name);
    ByNameCount(recs, m.name);
    forall i | 0 <= i < |calls|
      ensures |calls[i].depths| == 1 && calls[i].callCount == 1
    {
      assert multiset(calls)[calls[i]] > 0;
      assert calls[i] in recs;
    }
    DepthCountsAddUp(calls);
    CallCountsAddUp(calls);
    assert |multiset(m.depths)| == |m.depths|;
  }

  /**
   * What `main` prints, as records: one record per function name of all
   * runs, each adding up every call of that function in every run, with one
   * depth per call.
   */
  ghost predicate Report(trees: seq<RunTree>, stats: seq<FuncStats>)
    requires forall k :: 0 <= k < |trees| ==> ValidTree(trees[k])
  {
    && |Names(stats)| == |stats| && Names(stats) == Names(AllRecords(trees))
    && forall j :: 0 <= j < |stats| ==>
      && ByName(AllRecords(trees), stats[j].name) != []
      && Abstract(stats[j]) == SummaryOf(ByName(AllRecords(trees), stats[j].name))
      && |stats[j].depths| == stats[j].callCount == |ByName(AllRecords(trees), stats[j].name)|
  }

  /** Reordering the report keeps it a report. */
  lemma ReportPermutation(trees: seq<RunTree>, a: seq<FuncStats>, b: seq<FuncStats>)
    requires forall k :: 0 <= k < |trees| ==> ValidTree(trees[k])
    requires Report(trees, a) && multiset(a) == multiset(b)
    ensures Report(trees, b)
  {
    assert |a| == |multiset(a)| == |b|;
    assert forall f :: f in a <==> f in b by {
      forall f
        ensures f in a <==> f in b
      {
        assert f in a <==> f in multiset(a);
      }
    }
    assert Names(a) == Names(b);
    forall j | 0 <= j < |b|
      ensures ByName(AllRecords(trees), b[j].name) != []
      ensures Abstract(b[j]) == SummaryOf(ByName(AllRecords(trees), b[j].name))
      ensures |b[j].depths| == b[j].callCount == |ByName(AllRecords(trees), b[j].name)|
    {
      assert b[j] in a;
      var i :| 0 <= i < |a| && a[i] == b[j];
    }
  }

  /** The merged records of all trees form the report. */
  lemma MergedReport(trees: seq<RunTree>, all: seq<FuncStats>, merged: seq<FuncStats>)
    requires forall k :: 0 <= k < |trees| ==> ValidTree(trees[k])
    requires Names(all) == Names(AllRecords(trees)) && Summarises(all, AllRecords(trees))
    requires |Names(merged)| == |merged| && Names(merged) == Names(all)
    requires forall j :: 0 <= j < |merged| ==>
      ByName(all, merged[j].name) != [] && Abstract(merged[j]) == SummaryOf(ByName(all, merged[j].name))
    ensures Report(trees, merged)
  {
    AllRecordsSingle(trees);
    forall j | 0 <= j < |merged|
      ensures ByName(AllRecords(trees), merged[j].name) != []
      ensures Abstract(merged[j]) == SummaryOf(ByName(AllRecords(trees), merged[j].name))
      ensures |merged[j].depths| == merged[j].callCount == |ByName(AllRecords(trees), merged[j].name)|
    {
      var n := merged[j].name;
      assert n in Names(all);
      MergedCounts(AllRecords(trees), merged[j]);
    }
  }

  /**
   * `main` from the tracer's output, split into fields, to the records it
   * prints. A line that does not decode or a run that does not build is the
   * error; otherwise the result is the report of the trees, one per run id,
   * sorted by mean depth.
   */
  method Collect(out: seq<seq<string>>)
    returns (r: Result<seq<FuncStats>, CollectError>, ghost runs: seq<seq<Line>>,
             ghost sorted: seq<seq<Line>>, ghost trees: seq<RunTree>)
    ensures DecodeAll(out).Err? ==> r == Err(DecodeAll(out).error)
    ensures DecodeAll(out).Ok? ==>
      && RunsOf(DecodeAll(out).value, runs)
      && |sorted| <= |runs| && (forall k :: 0 <= k < |sorted| ==> SortedRun(runs[k], sorted[k]))
      && (r.Ok? <==> |sorted| == |runs| && forall k :: 0 <= k < |sorted| ==> Builds(sorted[k]))
    ensures r.Ok? ==>
      && BuiltRuns(runs, sorted, trees) && |trees| == |runs|
      && SortedBy(r.value, DepthOrder) && Report(trees, r.value)
  {
    runs, sorted, trees := [], [], [];
    var decoded := DecodeAll(out);
    if decoded.Err? {
      return Err(decoded.error), runs, sorted, trees;
    }
    var lineRuns := SplitRuns(decoded.value);
    runs := lineRuns;
    var built, runLines := BuildRuns(lineRuns);
    sorted := runLines;
    if built.Err? {
      return Err(built.error), runs, sorted, trees;
    }
    var runTrees := built.value;
    trees := runTrees;
    BuiltRunsValid(runs, sorted, trees);
    var all := StatsOfTrees(runTrees);
    var merged := MergeByName(all);
    MergedReport(trees, all, merged);
    var result := SortByDepth(merged);
    ReportPermutation(trees, merged, result);
    r := Ok(result);
  }

  lemma BuiltRunsValid(runs: seq<seq<Line>>, sorted: seq<seq<Line>>, trees: seq<RunTree>)
    requires BuiltRuns(runs, sorted, trees)
    ensures forall k :: 0 <= k < |trees| ==> ValidTree(trees[k])
  {
    forall k | 0 <= k < |trees|
      ensures ValidTree(trees[k])
    {
      assert BuiltRun(runs[k], sorted[k], trees[k]);
    }
  }
}

=== FILE: run_stats.dfy ===
/**
 * `RunTree.stats`: one record per node (`create_stat`), produced in preorder,
 * then folded by function name through a dictionary.
 */
module RunStats {
  import opened Wrappers
  import opened Stats
  import opened RunTrees
  import opened Traversals

  predicate InRange(t: RunTree, cs: seq<nat>)
  {
    forall m :: 0 <= m < |cs| ==> cs[m] < |t.nodes|
  }

  /** `sum([child.total_time for child in ...], 0)`. */
  function SumTotals(t: RunTree, cs: seq<nat>): int
    requires InRange(t, cs)
  {
    if |cs| == 0 then 0 else t.nodes[cs[0]].total + SumTotals(t, cs[1..])
  }

  /**
   * `create_stat`: the record of one call. Its self time is its total time
   * minus the total times of its children, without clamping; it has one
   * depth, one call, its parent's name as caller (none at a root) and its
   * children's names, in order, as callees.
   */
  function CreateStat(t: RunTree, v: nat): (r: FuncStats)
    requires ValidTree(t) && v < |t.nodes|
    ensures r.name == t.nodes[v].name && r.totalTime == t.nodes[v].total
    ensures r.contribTime + SumTotals(t, t.nodes[v].children) == r.totalTime
    ensures r.depths == [t.nodes[v].depth] && r.callCount == 1
    ensures t.nodes[v].parent.None? ==> r.callers == []
    ensures t.nodes[v].parent.Some? ==> r.callers == [t.nodes[t.nodes[v].parent.value].name]
    ensures |r.callees| == |t.nodes[v].children|
    ensures forall m :: 0 <= m < |r.callees| ==> r.callees[m] == t.nodes[t.nodes[v].children[m]].name
  {
    var n := t.nodes[v];
    var cs := n.children;
    FuncStats(
      n.name,
      n.total,
      n.total - SumTotals(t, cs),
      [n.depth],
      1,
      if n.parent.Some? then [t.nodes[n.parent.value].name] else [],
      seq(|cs|, m requires 0 <= m < |cs| => t.nodes[cs[m]].name))
  }

  /** The records of the listed nodes, in order. */
  function StatRecords(t: RunTree, xs: seq<nat>): (r: seq<FuncStats>)
    requires ValidTree(t) && InRange(t, xs)
    ensures |r| == |xs| && forall i :: 0 <= i < |xs| ==> r[i] == CreateStat(t, xs[i])
  {
    seq(|xs|, i requires 0 <= i < |xs| => CreateStat(t, xs[i]))
  }

  /** `fn_stats`: the records of all nodes of the tree, in preorder. */
  function Records(t: RunTree): seq<FuncStats>
    requires ValidTree(t)
  {
    StatRecords(t, Preorder(t, t.root))
  }

  lemma StatRecordsAppend(t: RunTree, a: seq<nat>, b: seq<nat>)
    requires ValidTree(t) && InRange(t, a) && InRange(t, b)
    ensures InRange(t, a + b)
    ensures StatRecords(t, a + b) == StatRecords(t, a) + StatRecords(t, b)
  {
  }

  /** Every record counts one call, so the call counts add up to the number of records. */
  lemma {:induction false} CallCountsAddUp(fs: seq<FuncStats>)
    requires forall i :: 0 <= i < |fs| ==> fs[i].callCount == 1
    ensures SummaryOf(fs).callCount == |fs|
  {
    if |fs| > 0 {
      CallCountsAddUp(fs[..|fs| - 1]);
    }
  }

  lemma SumTotalsStep(t: RunTree, cs: seq<nat>, m: nat)
    requires InRange(t, cs) && m < |cs|
    ensures InRange(t, cs[m..]) && InRange(t, cs[m + 1..])
    ensures SumTotals(t, cs[m..]) == t.nodes[cs[m]].total + SumTotals(t, cs[m + 1..])
  {
    assert cs[m..][1..] == cs[m + 1..];
  }

  /** The self time of node `v`: its total time minus its children's. */
  function SelfTime(t: RunTree, v: nat): int
    requires ValidTree(t) && v < |t.nodes|
  {
    t.nodes[v].total - SumTotals(t, t.nodes[v].children)
  }

  /** The self times of the listed nodes, added up. */
  function SelfTimes(t: RunTree, xs: seq<nat>): int
    requires ValidTree(t) && InRange(t, xs)
  {
    if |xs| == 0 then 0 else SelfTime(t, xs[0]) + SelfTimes(t, xs[1..])
  }

  lemma {:induction false} SelfTimesAppend(t: RunTree, a: seq<nat>, b: seq<nat>)
    requires ValidTree(t) && InRange(t, a) && InRange(t, b)
    ensures InRange(t, a + b) && SelfTimes(t, a + b) == SelfTimes(t, a) + SelfTimes(t, b)
  {
    if |a| > 0 {
      assert (a + b)[1..] == a[1..] + b;
      SelfTimesAppend(t, a[1..], b);
    } else {
      assert a + b == b;
    }
  }

  /**
   * Self times telescope: over the subtree of `v`, every child's total is
   * subtracted once from its parent's, so the self times add up to the total
   * time of `v`.
   */
  lemma {:induction false} SelfTimesTelescope(t: RunTree, v: nat)
    requires ValidTree(t) && v < |t.nodes|
    ensures SelfTimes(t, Preorder(t, v)) == t.nodes[v].total
    decreases |t.nodes| - v, 1, 0
  {
    var cs := t.nodes[v].children;
    assert cs[0..] == cs;
    SelfTimesFrom(t, v, 0);
    SelfTimesAppend(t, [v], PreorderFrom(t, v, 0));
  }

  lemma {:induction false} SelfTimesFrom(t: RunTree, v: nat, m: nat)
    requires ValidTree(t) && v < |t.nodes| && m <= |t.nodes[v].children|
    ensures InRange(t, t.nodes[v].children[m..])
    ensures SelfTimes(t, PreorderFrom(t, v, m)) == SumTotals(t, t.nodes[v].children[m..])
    decreases |t.nodes| - v, 0, |t.nodes[v].children| - m
  {
    var cs := t.nodes[v].children;
    if m == |cs| {
      assert cs[m..] == [];
    } else {
      SelfTimesTelescope(t, cs[m]);
      SelfTimesFrom(t, v, m + 1);
      SumTotalsStep(t, cs, m);
      SelfTimesAppend(t, Preorder(t, cs[m]), PreorderFrom(t, v, m + 1));
    }
  }

  lemma StatRecordsFront(t: RunTree, xs: seq<nat>)
    requires ValidTree(t) && InRange(t, xs) && |xs| > 0
    ensures StatRecords(t, xs)[..|xs| - 1] == StatRecords(t, xs[..|xs| - 1])
  {
  }

  /** The summed self times of the records are the self times of their nodes. */
  lemma {:induction false} ContribIsSelfTimes(t: RunTree, xs: seq<nat>)
    requires ValidTree(t) && InRange(t, xs)
    ensures SummaryOf(StatRecords(t, xs)).contribTime == SelfTimes(t, xs)
  {
    if |xs| > 0 {
      var front := xs[..|xs| - 1];
      var x := xs[|xs| - 1];
      SplitLast(xs);
      StatRecordsFront(t, xs);
      ContribIsSelfTimes(t, front);
      SelfTimesAppend(t, front, [x]);
    }
  }

  /** `grouped_stats.values()`, in the order the names were first inserted. */
  function ValuesIn(grouped: map<string, FuncStats>, order: seq<string>): (r: seq<FuncStats>)
    requires forall j :: 0 <= j < |order| ==> order[j] in grouped
    ensures |r| == |order| && forall j :: 0 <= j < |order| ==> r[j] == grouped[order[j]]
  {
    seq(|order|, j requires 0 <= j < |order| => grouped[order[j]])
  }

  /** The dictionary's keys are the names `order` lists once each, and the names of the records `pre`. */
  ghost predicate KeysMatch(pre: seq<FuncStats>, grouped: map<string, FuncStats>, order: seq<string>)
  {
    && NoDuplicates(order)
    && (forall n :: n in grouped <==> n in order)
    && (forall n :: n in grouped <==> ByName(pre, n) != [])
  }

  /** Each entry is the left fold of `merge` over its name's records in `pre`. */
  ghost predicate EntriesFold(pre: seq<FuncStats>, grouped: map<string, FuncStats>)
  {
    forall n :: n in grouped ==> ByName(pre, n) != [] && grouped[n] == FoldMerge(ByName(pre, n))
  }

  /** The entries, listed in `order`, summarise exactly the records `pre`. */
  ghost predicate EntriesSum(pre: seq<FuncStats>, grouped: map<string, FuncStats>, order: seq<string>)
  {
    && (forall j :: 0 <= j < |order| ==> order[j] in grouped)
    && SummaryOf(ValuesIn(grouped, order)) == SummaryOf(pre)
  }

  /** The dictionary and its insertion order after the records `pre`. */
  ghost predicate Grouped(pre: seq<FuncStats>, grouped: map<string, FuncStats>, order: seq<string>)
  {
    KeysMatch(pre, grouped, order) && EntriesFold(pre, grouped) && EntriesSum(pre, grouped, order)
  }

  lemma ByNameSnoc(pre: seq<FuncStats>, f: FuncStats, n: string)
    ensures f.name == n ==> ByName(pre + [f], n) == ByName(pre, n) + [f]
    ensures f.name != n ==> ByName(pre + [f], n) == ByName(pre, n)
  {
    assert (pre + [f])[..|pre|] == pre;
    assert ByName(pre, n) + [] == ByName(pre, n);
  }

  lemma FoldMergeSnoc(fs: seq<FuncStats>, f: FuncStats)
    requires |fs| > 0 && SameName(fs) && f.name == fs[0].name
    ensures SameName(fs + [f]) && Merge(FoldMerge(fs), f).Some?
    ensures FoldMerge(fs + [f]) == Merge(FoldMerge(fs), f).value
  {
    assert (fs + [f])[..|fs|] == fs;
  }

  lemma KeysMergeStep(pre: seq<FuncStats>, f: FuncStats, grouped: map<string, FuncStats>, order: seq<string>, y: FuncStats)
    requires KeysMatch(pre, grouped, order) && f.name in grouped
    ensures KeysMatch(pre + [f], grouped[f.name := y], order)
  {
    forall n | true
      ensures n in grouped <==> ByName(pre + [f], n) != []
    {
      ByNameSnoc(pre, f, n);
    }
  }

  lemma KeysInsertStep(pre: seq<FuncStats>, f: FuncStats, grouped: map<string, FuncStats>, order: seq<string>)
    requires KeysMatch(pre, grouped, order) && f.name !in grouped
    ensures KeysMatch(pre + [f], grouped[f.name := f], order + [f.name])
  {
    forall n | true
      ensures n in grouped[f.name := f] <==> ByName(pre + [f], n) != []
    {
      ByNameSnoc(pre, f, n);
    }
  }

  /** Folding one more record into its name's entry keeps every entry the fold of its name's records. */
  lemma FoldsMergeStep(pre: seq<FuncStats>, f: FuncStats, grouped: map<string, FuncStats>)
    requires EntriesFold(pre, grouped) && f.name in grouped
    ensures Merge(grouped[f.name], f).Some?
    ensures EntriesFold(pre + [f], grouped[f.name := Merge(grouped[f.name], f).value])
  {
    var g' := grouped[f.name := Merge(grouped[f.name], f).value];
    FoldMergeSnoc(ByName(pre, f.name), f);
    forall n | n in g'
      ensures ByName(pre + [f], n) != [] && g'[n] == FoldMerge(ByName(pre + [f], n))
    {
      ByNameSnoc(pre, f, n);
    }
  }

  lemma FoldsInsertStep(pre: seq<FuncStats>, f: FuncStats, grouped: map<string, FuncStats>)
    requires EntriesFold(pre, grouped) && f.name !in grouped && ByName(pre, f.name) == []
    ensures EntriesFold(pre + [f], grouped[f.name := f])
  {
    var g' := grouped[f.name := f];
    forall n | n in g'
      ensures ByName(pre + [f], n) != [] && g'[n] == FoldMerge(ByName(pre + [f], n))
    {
      ByNameSnoc(pre, f, n);
      if n == f.name {
        assert ByName(pre, n) + [f] == [f];
      }
    }
  }

  lemma SumMergeStep(pre: seq<FuncStats>, f: FuncStats, grouped: map<string, FuncStats>, order: seq<string>)
    requires KeysMatch(pre, grouped, order) && EntriesSum(pre, grouped, order)
    requires f.name in grouped && grouped[f.name].name == f.name
    ensures EntriesSum(pre + [f], grouped[f.name := Merge(grouped[f.name], f).value], order)
  {
    var n := f.name;
    var y := Merge(grouped[n], f).value;
    assert n in order;
    var p :| 0 <= p < |order| && order[p] == n;
    MergeAbstract(grouped[n], f);
    ValuesInUpdate(grouped, order, p, y);
    SummaryOfUpdate(ValuesIn(grouped, order), p, y, Abstract(f));
    SummaryOfSnoc(pre, f);
  }

  /** Overwriting a listed key changes exactly its position among the values. */
  lemma ValuesInUpdate(grouped: map<string, FuncStats>, order: seq<string>, p: nat, y: FuncStats)
    requires NoDuplicates(order) && (forall j :: 0 <= j < |order| ==> order[j] in grouped) && p < |order|
    ensures ValuesIn(grouped[order[p] := y], order) == ValuesIn(grouped, order)[p := y]
  {
    var vals := ValuesIn(grouped, order);
    var g' := grouped[order[p] := y];
    forall j | 0 <= j < |order|
      ensures ValuesIn(g', order)[j] == vals[p := y][j]
    {
      if j != p {
        assert order[j] != order[p];
      }
    }
  }

  lemma SumInsertStep(pre: seq<FuncStats>, f: FuncStats, grouped: map<string, FuncStats>, order: seq<string>)
    requires EntriesSum(pre, grouped, order) && f.name !in grouped
    ensures EntriesSum(pre + [f], grouped[f.name := f], order + [f.name])
  {
    assert ValuesIn(grouped[f.name := f], order + [f.name]) == ValuesIn(grouped, order) + [f];
    SummaryOfSnoc(ValuesIn(grouped, order), f);
    SummaryOfSnoc(pre, f);
  }

  /** `grouped_stats[name] = grouped_stats[name].merge(fn_stat)`. */
  lemma GroupedMergeStep(pre: seq<FuncStats>, f: FuncStats, grouped: map<string, FuncStats>, order: seq<string>)
    requires Grouped(pre, grouped, order) && f.name in grouped
    ensures Merge(grouped[f.name], f).Some?
    ensures Grouped(pre + [f], grouped[f.name := Merge(grouped[f.name], f).value], order)
  {
    FoldsMergeStep(pre, f, grouped);
    KeysMergeStep(pre, f, grouped, order, Merge(grouped[f.name], f).value);
    SumMergeStep(pre, f, grouped, order);
  }

  /** `grouped_stats[name] = fn_stat` for a name not seen before. */
  lemma GroupedInsertStep(pre: seq<FuncStats>, f: FuncStats, grouped: map<string, FuncStats>, order: seq<string>)
    requires Grouped(pre, grouped, order) && f.name !in grouped
    ensures Grouped(pre + [f], grouped[f.name := f], order + [f.name])
  {
    KeysInsertStep(pre, f, grouped, order);
    FoldsInsertStep(pre, f, grouped);
    SumInsertStep(pre, f, grouped, order);
  }

  lemma GroupedEmpty()
    ensures Grouped([], map[], [])
  {
    assert ValuesIn(map[], []) == [];
  }

  /** One iteration of the dictionary loop of `stats`. */
  method AddRecord(ghost pre: seq<FuncStats>, f: FuncStats, grouped: map<string, FuncStats>, order: seq<string>)
    returns (grouped': map<string, FuncStats>, order': seq<string>)
    requires Grouped(pre, grouped, order)
    ensures Grouped(pre + [f], grouped', order')
  {
    if f.name in grouped {
      GroupedMergeStep(pre, f, grouped, order);
      grouped' := grouped[f.name := Merge(grouped[f.name], f).value];
      order' := order;
    } else {
      GroupedInsertStep(pre, f, grouped, order);
      grouped' := grouped[f.name := f];
      order' := order + [f.name];
    }
  }

  /**
   * The dictionary loop of `stats`: folds the records into one entry per
   * name, merging each record into its name's entry in order, and returns
   * the entries. The result has one record per name of `recs`, each the left
   * fold of `merge` over that name's records, and the records together
   * summarise `recs`.
   */
  method GroupByName(recs: seq<FuncStats>) returns (vals: seq<FuncStats>)
    ensures forall i, j :: 0 <= i < j < |vals| ==> vals[i].name != vals[j].name
    ensures Names(vals) == Names(recs)
    ensures forall j :: 0 <= j < |vals| ==>
      ByName(recs, vals[j].name) != [] && vals[j] == FoldMerge(ByName(recs, vals[j].name))
    ensures SummaryOf(vals) == SummaryOf(recs)
  {
    var grouped, order := FoldRecords(recs);
    GroupedValues(recs, grouped, order);
    vals := ValuesIn(grouped, order);
  }

  /** The loop over the records that fills the dictionary `grouped_stats`. */
  method FoldRecords(recs: seq<FuncStats>) returns (grouped: map<string, FuncStats>, order: seq<string>)
    ensures Grouped(recs, grouped, order)
  {
    grouped, order := map[], [];
    ghost var pre: seq<FuncStats> := [];
    GroupedEmpty();
    var i := 0;
    while i < |recs|
      invariant i <= |recs| && pre == recs[..i]
      invariant Grouped(pre, grouped, order)
    {
      grouped, order := AddRecord(pre, recs[i], grouped, order);
      pre := pre + [recs[i]];
      i := i + 1;
    }
    assert pre == recs;
  }

  /**
   * `RunTree.stats`: the per-node records in preorder, folded by name. The
   * result has one record per function name of the tree, each the left fold
   * of `merge` over that name's records in preorder, and the records together
   * summarise all per-node records.
   */
  method TreeStats(t: RunTree) returns (vals: seq<FuncStats>)
    requires ValidTree(t)
    ensures forall i, j :: 0 <= i < j < |vals| ==> vals[i].name != vals[j].name
    ensures Names(vals) == Names(Records(t))
    ensures forall j :: 0 <= j < |vals| ==>
      ByName(Records(t), vals[j].name) != [] && vals[j] == FoldMerge(ByName(Records(t), vals[j].name))
    ensures SummaryOf(vals) == SummaryOf(Records(t))
  {
    var recs := PreorderMap(t, (v: nat) requires ValidTree(t) && v < |t.nodes| => CreateStat(t, v));
    assert recs == Records(t);
    vals := GroupByName(recs);
  }

  /** Each entry carries its own key as name. */
  lemma EntryNames(recs: seq<FuncStats>, grouped: map<string, FuncStats>, order: seq<string>)
    requires KeysMatch(recs, grouped, order) && EntriesFold(recs, grouped)
    ensures forall j :: 0 <= j < |order| ==> order[j] in grouped && grouped[order[j]].name == order[j]
  {
    forall j | 0 <= j < |order|
      ensures order[j] in grouped && grouped[order[j]].name == order[j]
    {
      assert order[j] in grouped;
    }
  }

  lemma ValuesNamesDistinct(grouped: map<string, FuncStats>, order: seq<string>)
    requires NoDuplicates(order)
    requires forall j :: 0 <= j < |order| ==> order[j] in grouped && grouped[order[j]].name == order[j]
    ensures var vals := ValuesIn(grouped, order);
      forall i, j :: 0 <= i < j < |vals| ==> vals[i].name != vals[j].name
  {
  }

  lemma ValuesNames(recs: seq<FuncStats>, grouped: map<string, FuncStats>, order: seq<string>)
    requires KeysMatch(recs, grouped, order)
    requires forall j :: 0 <= j < |order| ==> order[j] in grouped && grouped[order[j]].name == order[j]
    ensures Names(ValuesIn(grouped, order)) == Names(recs)
  {
    var vals := ValuesIn(grouped, order);
    forall n | n in Names(recs)
      ensures n in Names(vals)
    {
      RecordNameListed(recs, grouped, order, n);
    }
    forall n | n in Names(vals)
      ensures n in Names(recs)
    {
      ListedNameRecorded(recs, grouped, order, n);
    }
  }

  lemma RecordNameListed(recs: seq<FuncStats>, grouped: map<string, FuncStats>, order: seq<string>, n: string)
    requires KeysMatch(recs, grouped, order)
    requires forall j :: 0 <= j < |order| ==> order[j] in grouped && grouped[order[j]].name == order[j]
    requires n in Names(recs)
    ensures n in Names(ValuesIn(grouped, order))
  {
    var vals := ValuesIn(grouped, order);
    assert ByName(recs, n) != [];
    assert n in order;
    var j :| 0 <= j < |order| && order[j] == n;
    assert vals[j] in vals && vals[j].name == n;
  }

  lemma ListedNameRecorded(recs: seq<FuncStats>, grouped: map<string, FuncStats>, order: seq<string>, n: string)
    requires KeysMatch(recs, grouped, order)
    requires forall j :: 0 <= j < |order| ==> order[j] in grouped && grouped[order[j]].name == order[j]
    requires n in Names(ValuesIn(grouped, order))
    ensures n in Names(recs)
  {
    var vals := ValuesIn(grouped, order);
    var f :| f in vals && f.name == n;
    var j :| 0 <= j < |vals| && vals[j] == f;
    assert order[j] in grouped && order[j] == n;
    assert ByName(recs, n) != [];
  }

  lemma ValuesFold(recs: seq<FuncStats>, grouped: map<string, FuncStats>, order: seq<string>)
    requires EntriesFold(recs, grouped)
    requires forall j :: 0 <= j < |order| ==> order[j] in grouped && grouped[order[j]].name == order[j]
    ensures var vals := ValuesIn(grouped, order);
      forall j :: 0 <= j < |vals| ==> ByName(recs, vals[j].name) != [] && vals[j] == FoldMerge(ByName(recs, vals[j].name))
  {
  }

  /** What the finished dictionary's values say about the records. */
  lemma GroupedValues(recs: seq<FuncStats>, grouped: map<string, FuncStats>, order: seq<string>)
    requires Grouped(recs, grouped, order)
    ensures EntriesSum(recs, grouped, order)
    ensures var vals := ValuesIn(grouped, order);
      && (forall i, j :: 0 <= i < j < |vals| ==> vals[i].name != vals[j].name)
      && Names(vals) == Names(recs)
      && (forall j :: 0 <= j < |vals| ==>
            ByName(recs, vals[j].name) != [] && vals[j] == FoldMerge(ByName(recs, vals[j].name)))
      && SummaryOf(vals) == SummaryOf(recs)
  {
    EntryNames(recs, grouped, order);
    ValuesNamesDistinct(grouped, order);
    ValuesNames(recs, grouped, order);
    ValuesFold(recs, grouped, order);
  }

  /** The call counts of `stats` add up to the number of nodes of the tree. */
  lemma StatsCallCount(t: RunTree, vals: seq<FuncStats>)
    requires ValidTree(t) && SummaryOf(vals) == SummaryOf(Records(t))
    ensures SummaryOf(vals).callCount == |Preorder(t, t.root)|
  {
    var xs := Preorder(t, t.root);
    var recs := Records(t);
    forall i | 0 <= i < |recs|
      ensures recs[i].callCount == 1
    {
      assert recs[i] == CreateStat(t, xs[i]);
    }
    CallCountsAddUp(recs);
  }

  /** The self times of `stats` add up to the total time of the root. */
  lemma StatsContribTime(t: RunTree, vals: seq<FuncStats>)
    requires ValidTree(t) && SummaryOf(vals) == SummaryOf(Records(t))
    ensures SummaryOf(vals).contribTime == t.nodes[t.root].total
  {
    SelfTimesTelescope(t, t.root);
    ContribIsSelfTimes(t, Preorder(t, t.root));
  }
}

=== FILE: run_tree.dfy ===
/**
 * The call tree of one run (`Node`, `RunTree` in topo-collect.py), kept as an
 * arena: node `i` is the `i`-th fused (run, call) group in sorted order, a
 * parent is an index and the children are a list of indices in call order.
 */
module RunTrees {
  import opened Wrappers
  import opened Sorting
  import opened TraceLines

  datatype Node = Node(
    name: string,
    run: int,
    call: int,
    thread: int,
    depth: int,
    start: int,
    total: int,
    parent: Option<nat>,
    children: seq<nat>)

  datatype RunTree = RunTree(runId: int, root: nat, nodes: seq<Node>)

  datatype BuildError =
    | EmptyRun                          // no line at all: the source ends with `root` still None
    | MissingReturn(run: int, call: int) // a group with one line: `val_lists[1]` fails
    | NotAnEntry(run: int, call: int)    // a group whose first line is a return line: `from_strings` fails
    | NoParent(run: int, call: int)      // the stack runs empty while looking for a parent

  /** The groupby key of a line: `x[1:3]`, its run id and call id. */
  function Key(l: Line): (int, int)
  {
    (l.run, l.call)
  }

  lemma CallOrderTotal()
    ensures TotalPreorder(CallOrder)
  {
  }

  /** A node's own fields, with the links forgotten. */
  function Unlink(n: Node): Node
  {
    n.(parent := None, children := [])
  }

  /**
   * One (run, call) group fused into a node (`from_strings` on the first line
   * with the last field of the second appended): the entry fields come from
   * the first line, the total time is the last field of the second line.
   */
  function FuseGroup(g: seq<Line>): (r: Result<Node, BuildError>)
    requires |g| > 0
    ensures r.Ok? <==> |g| >= 2 && g[0].Entry?
    ensures r.Ok? ==>
      && r.value == Unlink(r.value)
      && r.value.name == g[0].name && r.value.run == g[0].run && r.value.call == g[0].call
      && r.value.thread == g[0].thread && r.value.depth == g[0].depth && r.value.start == g[0].start
      && r.value.total == LastField(g[1])
  {
    if |g| < 2 then Err(MissingReturn(g[0].run, g[0].call))
    else if !g[0].Entry? then Err(NotAnEntry(g[0].run, g[0].call))
    else
      var e := g[0];
      Ok(Node(e.name, e.run, e.call, e.thread, e.depth, e.start, LastField(g[1]), None, []))
  }

  predicate NonEmptyGroups(groups: seq<seq<Line>>)
  {
    forall k :: 0 <= k < |groups| ==> |groups[k]| > 0
  }

  predicate AllFuse(groups: seq<seq<Line>>)
    requires NonEmptyGroups(groups)
  {
    forall k :: 0 <= k < |groups| ==> FuseGroup(groups[k]).Ok?
  }

  function Fused(groups: seq<seq<Line>>): (ns: seq<Node>)
    requires NonEmptyGroups(groups) && AllFuse(groups)
    ensures |ns| == |groups|
    ensures forall k :: 0 <= k < |groups| ==> ns[k] == FuseGroup(groups[k]).value
  {
    seq(|groups|, k requires 0 <= k < |groups| => FuseGroup(groups[k]).value)
  }

  function Depths(nodes: seq<Node>): (ds: seq<int>)
    ensures |ds| == |nodes|
    ensures forall i :: 0 <= i < |nodes| ==> ds[i] == nodes[i].depth
  {
    seq(|nodes|, i requires 0 <= i < |nodes| => nodes[i].depth)
  }

  /** Some earlier node is shallower than node `i`. */
  predicate HasShallower(ds: seq<int>, i: nat)
    requires i < |ds|
  {
    exists j :: 0 <= j < i && ds[j] < ds[i]
  }

  /** `p` is the closest node before `i` that is shallower than `i`. */
  predicate NearestShallower(ds: seq<int>, p: nat, i: nat)
    requires i < |ds|
  {
    p < i && ds[p] < ds[i] && forall j :: p < j < i ==> ds[j] >= ds[i]
  }

  /**
   * The fused nodes can be linked: the first node has call id 0 and every
   * other node whose call id is not 0 has a shallower node before it.
   */
  predicate Linkable(ns: seq<Node>)
  {
    && |ns| > 0
    && ns[0].call == 0
    && forall i :: 0 < i < |ns| && ns[i].call != 0 ==> HasShallower(Depths(ns), i)
  }

  /**
   * The links of an arena: a parent is the nearest shallower earlier node,
   * a children list holds exactly the nodes naming it as parent, in index
   * (call) order.
   */
  predicate Linked(nodes: seq<Node>)
  {
    && (forall i :: 0 <= i < |nodes| && nodes[i].parent.Some? ==>
          NearestShallower(Depths(nodes), nodes[i].parent.value, i))
    && (forall p, m :: 0 <= p < |nodes| && 0 <= m < |nodes[p].children| ==>
          && nodes[p].children[m] < |nodes|
          && nodes[nodes[p].children[m]].parent == Some(p)
          && (m > 0 ==> nodes[p].children[m - 1] < nodes[p].children[m]))
    && (forall i :: 0 <= i < |nodes| && nodes[i].parent.Some? ==>
          i in nodes[nodes[i].parent.value].children)
  }

  /**
   * What the traversals need of an arena: the root and all links in range, a
   * parent before its child and listing it among its children, children in
   * increasing order and naming their parent.
   */
  predicate ValidTree(t: RunTree)
  {
    && t.root < |t.nodes|
    && (forall i :: 0 <= i < |t.nodes| && t.nodes[i].parent.Some? ==>
          t.nodes[i].parent.value < i && i in t.nodes[t.nodes[i].parent.value].children)
    && (forall p, m :: 0 <= p < |t.nodes| && 0 <= m < |t.nodes[p].children| ==>
          && p < t.nodes[p].children[m] < |t.nodes|
          && t.nodes[t.nodes[p].children[m]].parent == Some(p)
          && (m > 0 ==> t.nodes[p].children[m - 1] < t.nodes[p].children[m]))
  }

  /**
   * The explicit stack of open ancestors, as indices into `ds` (the depths of
   * the nodes linked so far): it starts at the first node, ends at the last
   * one, and every node strictly between two neighbours on the stack is at
   * least as deep as the upper neighbour.
   */
  predicate StackShape(ds: seq<int>, s: seq<nat>)
  {
    && (|ds| == 0 <==> |s| == 0)
    && (|ds| > 0 ==> s[0] == 0 && s[|s| - 1] == |ds| - 1)
    && (forall m :: 0 <= m < |s| ==> s[m] < |ds|)
    && (forall m :: 0 < m < |s| ==> s[m - 1] < s[m])
    && (forall m, j :: 0 < m < |s| && s[m - 1] < j < s[m] ==> ds[j] >= ds[s[m]])
  }

  /**
   * If every stack entry above position `m` is at least `d` deep, so is every
   * node after the entry at `m`.
   */
  lemma {:induction false} AboveStackEntry(ds: seq<int>, s: seq<nat>, m: nat, d: int)
    requires StackShape(ds, s) && m < |s|
    requires forall m' :: m < m' < |s| ==> ds[s[m']] >= d
    ensures forall j :: s[m] < j < |ds| ==> ds[j] >= d
    decreases |s| - m
  {
    if m + 1 < |s| {
      AboveStackEntry(ds, s, m + 1, d);
    }
  }

  /** Attaching a new last node under `p`: `node.parent = nodes[-1]; nodes[-1].children.append(node)`. */
  function Attach(nodes: seq<Node>, p: nat, node: Node): (r: seq<Node>)
    requires p < |nodes|
    ensures |r| == |nodes| + 1
  {
    nodes[p := nodes[p].(children := nodes[p].children + [|nodes|])] + [node.(parent := Some(p))]
  }

  lemma AttachDepths(nodes: seq<Node>, p: nat, node: Node)
    requires p < |nodes|
    ensures Depths(Attach(nodes, p, node)) == Depths(nodes) + [node.depth]
  {
  }

  lemma AttachLinked(nodes: seq<Node>, p: nat, node: Node)
    requires Linked(nodes) && node == Unlink(node)
    requires p < |nodes| && NearestShallower(Depths(nodes) + [node.depth], p, |nodes|)
    requires forall m :: 0 <= m < |nodes[p].children| ==> nodes[p].children[m] < |nodes|
    ensures Linked(Attach(nodes, p, node))
  {
    var r := Attach(nodes, p, node);
    AttachDepths(nodes, p, node);
    var k := |nodes|;
    forall i | 0 <= i < |r| && r[i].parent.Some?
      ensures NearestShallower(Depths(r), r[i].parent.value, i)
    {
      if i < k {
        assert r[i].parent == nodes[i].parent;
      }
    }
    forall q, m | 0 <= q < |r| && 0 <= m < |r[q].children|
      ensures r[q].children[m] < |r|
      ensures r[r[q].children[m]].parent == Some(q)
      ensures m > 0 ==> r[q].children[m - 1] < r[q].children[m]
    {
      if q != p {
        assert q < k;
        assert r[q].children == nodes[q].children;
      } else if m < |nodes[p].children| {
        assert r[q].children[m] == nodes[p].children[m];
      }
    }
    forall i | 0 <= i < |r| && r[i].parent.Some?
      ensures i in r[r[i].parent.value].children
    {
      if i < k {
        var q := nodes[i].parent.value;
        assert i in nodes[q].children;
        assert nodes[q].children <= r[q].children;
      } else {
        assert r[p].children[|r[p].children| - 1] == k;
      }
    }
  }

  lemma AppendRootLinked(nodes: seq<Node>, node: Node)
    requires Linked(nodes) && node == Unlink(node)
    ensures Linked(nodes + [node])
    ensures Depths(nodes + [node]) == Depths(nodes) + [node.depth]
  {
    var r := nodes + [node];
    assert Depths(r) == Depths(nodes) + [node.depth];
    forall i | 0 <= i < |r| && r[i].parent.Some?
      ensures NearestShallower(Depths(r), r[i].parent.value, i)
    {
      assert i < |nodes|;
    }
  }

  /**
   * `t` is the tree linked from the fused nodes `ns`: same nodes in the same
   * order, linked as `Linked` says, with no parent exactly for call id 0, and
   * the root the last node with call id 0.
   */
  predicate BuiltFrom(ns: seq<Node>, t: RunTree)
  {
    && |t.nodes| == |ns|
    && (forall i :: 0 <= i < |ns| ==> Unlink(t.nodes[i]) == ns[i])
    && Linked(t.nodes)
    && (forall i :: 0 <= i < |ns| ==> (t.nodes[i].parent.None? <==> ns[i].call == 0))
    && t.root < |ns| && ns[t.root].call == 0
    && (forall i :: t.root < i < |ns| ==> ns[i].call != 0)
    && t.runId == ns[t.root].run
  }

  /** A linked arena satisfies what the traversals need. */
  lemma BuiltFromValid(ns: seq<Node>, t: RunTree)
    requires BuiltFrom(ns, t)
    ensures ValidTree(t)
  {
    forall i | 0 <= i < |t.nodes| && t.nodes[i].parent.Some?
      ensures t.nodes[i].parent.value < i
    {
      assert NearestShallower(Depths(t.nodes), t.nodes[i].parent.value, i);
    }
  }

  /** The first `|nodes|` groups all fused, into `nodes` in the same order. */
  ghost predicate FusedPrefix(groups: seq<seq<Line>>, nodes: seq<Node>)
    requires NonEmptyGroups(groups)
  {
    && |nodes| <= |groups|
    && forall m :: 0 <= m < |nodes| ==> FuseGroup(groups[m]).Ok? && Unlink(nodes[m]) == FuseGroup(groups[m]).value
  }

  /** The first node has call id 0 and `root` is the last node with call id 0. */
  ghost predicate RootIsLastCallZero(nodes: seq<Node>, root: nat)
  {
    && (|nodes| > 0 ==> nodes[0].call == 0 && root < |nodes| && nodes[root].call == 0)
    && (forall i :: root < i < |nodes| ==> nodes[i].call != 0)
  }

  /** Exactly the call-0 nodes lack a parent; every other node has a shallower predecessor. */
  ghost predicate ParentsPlaced(nodes: seq<Node>)
  {
    && (forall i :: 0 <= i < |nodes| ==> (nodes[i].parent.None? <==> nodes[i].call == 0))
    && (forall i :: 0 < i < |nodes| && nodes[i].call != 0 ==> HasShallower(Depths(nodes), i))
  }

  /**
   * Depths strictly increase up the stack, except where a call-0 node was
   * pushed: `build` pushes a root without popping.
   */
  ghost predicate StackDeepens(nodes: seq<Node>, stack: seq<nat>)
  {
    forall m :: 0 < m < |stack| ==> DeeperThanBelow(nodes, stack, m)
  }

  /** The stack entry at `m` is a root or is deeper than the entry below it. */
  ghost predicate DeeperThanBelow(nodes: seq<Node>, stack: seq<nat>, m: nat)
  {
    0 < m < |stack| && stack[m - 1] < |nodes| && stack[m] < |nodes| ==>
      nodes[stack[m]].call == 0 || nodes[stack[m - 1]].depth < nodes[stack[m]].depth
  }

  /**
   * What `build`'s loop keeps after the first `k` groups: they fused into
   * `nodes`, `root` is the last call-0 node, parents are placed and linked as
   * `Linked` says, and `stack` is the stack of open ancestors, deepening
   * strictly above every entry other than a root.
   */
  ghost predicate LinkState(groups: seq<seq<Line>>, k: nat, nodes: seq<Node>, stack: seq<nat>, root: nat)
    requires NonEmptyGroups(groups)
  {
    && |nodes| == k
    && FusedPrefix(groups, nodes)
    && RootIsLastCallZero(nodes, root)
    && ParentsPlaced(nodes)
    && Linked(nodes)
    && StackShape(Depths(nodes), stack)
    && StackDeepens(nodes, stack)
  }

  /** Pushing a new root keeps the stack deepening: nothing is asked of a call-0 entry. */
  lemma StackDeepensRoot(nodes: seq<Node>, stack: seq<nat>, node: Node)
    requires StackDeepens(nodes, stack) && node.call == 0
    requires forall m :: 0 <= m < |stack| ==> stack[m] < |nodes|
    ensures StackDeepens(nodes + [node], stack + [|nodes|])
  {
    var r, s := nodes + [node], stack + [|nodes|];
    forall m | 0 < m < |s|
      ensures DeeperThanBelow(r, s, m)
    {
      if m < |stack| {
        assert DeeperThanBelow(nodes, stack, m);
        assert r[s[m - 1]] == nodes[stack[m - 1]] && r[s[m]] == nodes[stack[m]];
      }
    }
  }

  /** Pushing a node below which the popped stack is shallower keeps the stack deepening. */
  lemma StackDeepensPush(nodes: seq<Node>, r: seq<Node>, s0: seq<nat>, stack: seq<nat>)
    requires StackDeepens(nodes, s0) && Extends(nodes, r)
    requires forall m :: 0 <= m < |s0| ==> s0[m] < |nodes|
    requires 0 < |stack| <= |s0| && stack == s0[..|stack|]
    requires r[stack[|stack| - 1]].depth < r[|nodes|].depth
    ensures StackDeepens(r, stack + [|nodes|])
  {
    var s := stack + [|nodes|];
    forall m | 0 < m < |s|
      ensures DeeperThanBelow(r, s, m)
    {
      if m < |stack| {
        var i, j := stack[m - 1], stack[m];
        assert i == s0[m - 1] && j == s0[m];
        assert DeeperThanBelow(nodes, s0, m);
        assert Unlink(r[i]) == Unlink(nodes[i]) && Unlink(r[j]) == Unlink(nodes[j]);
      }
    }
  }

  /** `r` is `nodes` with one node appended, the old nodes' fields and parents unchanged. */
  ghost predicate Extends(nodes: seq<Node>, r: seq<Node>)
  {
    && |r| == |nodes| + 1
    && forall i :: 0 <= i < |nodes| ==> Unlink(r[i]) == Unlink(nodes[i]) && r[i].parent == nodes[i].parent
  }

  lemma AttachExtends(nodes: seq<Node>, p: nat, node: Node)
    requires p < |nodes|
    ensures Extends(nodes, Attach(nodes, p, node))
    ensures Attach(nodes, p, node)[|nodes|] == node.(parent := Some(p))
  {
  }

  lemma FusedPrefixStep(groups: seq<seq<Line>>, nodes: seq<Node>, r: seq<Node>, node: Node)
    requires NonEmptyGroups(groups) && FusedPrefix(groups, nodes) && |nodes| < |groups|
    requires FuseGroup(groups[|nodes|]) == Ok(node) && Extends(nodes, r) && Unlink(r[|nodes|]) == node
    ensures FusedPrefix(groups, r)
  {
  }

  lemma ParentsPlacedStep(nodes: seq<Node>, r: seq<Node>)
    requires ParentsPlaced(nodes) && Extends(nodes, r)
    requires Depths(r) == Depths(nodes) + [r[|nodes|].depth]
    requires r[|nodes|].parent.None? <==> r[|nodes|].call == 0
    requires |nodes| > 0 && r[|nodes|].call != 0 ==> HasShallower(Depths(r), |nodes|)
    ensures ParentsPlaced(r)
  {
    var k := |nodes|;
    forall i | 0 <= i < k
      ensures r[i].call == nodes[i].call
    {
      assert Unlink(r[i]).call == Unlink(nodes[i]).call;
    }
    forall i | 0 < i < k && r[i].call != 0
      ensures HasShallower(Depths(r), i)
    {
      var j :| 0 <= j < i && Depths(nodes)[j] < Depths(nodes)[i];
      assert Depths(r)[j] < Depths(r)[i];
    }
  }

  lemma StackPushRoot(ds: seq<int>, stack: seq<nat>, d: int)
    requires StackShape(ds, stack)
    ensures StackShape(ds + [d], stack + [|ds|])
  {
  }

  lemma StackPushChild(ds: seq<int>, s0: seq<nat>, stack: seq<nat>, d: int)
    requires StackShape(ds, s0) && 0 < |stack| <= |s0| && stack == s0[..|stack|]
    requires forall m :: |stack| <= m < |s0| ==> ds[s0[m]] >= d
    requires ds[stack[|stack| - 1]] < d
    ensures NearestShallower(ds + [d], stack[|stack| - 1], |ds|)
    ensures StackShape(ds + [d], stack + [|ds|])
  {
    AboveStackEntry(ds, s0, |stack| - 1, d);
    var s' := stack + [|ds|];
    var ds' := ds + [d];
    forall m, j | 0 < m < |s'| && s'[m - 1] < j < s'[m]
      ensures ds'[j] >= ds'[s'[m]]
    {
      if m < |stack| {
        assert s'[m - 1] == s0[m - 1] && s'[m] == s0[m];
      }
    }
  }

  /** A call-0 node becomes the new root and is pushed. */
  lemma RootStep(groups: seq<seq<Line>>, k: nat, nodes: seq<Node>, stack: seq<nat>, root: nat, node: Node)
    requires NonEmptyGroups(groups) && LinkState(groups, k, nodes, stack, root) && k < |groups|
    requires FuseGroup(groups[k]) == Ok(node) && node.call == 0
    ensures LinkState(groups, k + 1, nodes + [node], stack + [k], k)
  {
    var r := nodes + [node];
    AppendRootLinked(nodes, node);
    assert Extends(nodes, r);
    FusedPrefixStep(groups, nodes, r, node);
    ParentsPlacedStep(nodes, r);
    StackPushRoot(Depths(nodes), stack, node.depth);
    StackDeepensRoot(nodes, stack, node);
    assert RootIsLastCallZero(r, k) by {
      if k > 0 {
        assert r[0] == nodes[0];
      }
    }
  }

  /** A node with a call id other than 0 is attached under the top of the popped stack and pushed. */
  lemma AttachStep(groups: seq<seq<Line>>, k: nat, nodes: seq<Node>, s0: seq<nat>, stack: seq<nat>, root: nat, node: Node)
    requires NonEmptyGroups(groups) && LinkState(groups, k, nodes, s0, root) && k < |groups|
    requires FuseGroup(groups[k]) == Ok(node) && node.call != 0
    requires 0 < |stack| <= |s0| && stack == s0[..|stack|]
    requires forall m :: |stack| <= m < |s0| ==> Depths(nodes)[s0[m]] >= node.depth
    requires nodes[stack[|stack| - 1]].depth < node.depth
    ensures LinkState(groups, k + 1, Attach(nodes, stack[|stack| - 1], node), stack + [k], root)
  {
    var ds := Depths(nodes);
    var p := stack[|stack| - 1];
    StackPushChild(ds, s0, stack, node.depth);
    AttachLinked(nodes, p, node);
    AttachDepths(nodes, p, node);
    AttachExtends(nodes, p, node);
    var r := Attach(nodes, p, node);
    FusedPrefixStep(groups, nodes, r, node);
    StackDeepensPush(nodes, r, s0, stack);
    assert HasShallower(Depths(r), k) by {
      assert Depths(r)[p] < Depths(r)[k];
    }
    ParentsPlacedStep(nodes, r);
    assert RootIsLastCallZero(r, root) by {
      assert Unlink(r[0]).call == Unlink(nodes[0]).call;
      assert Unlink(r[root]).call == Unlink(nodes[root]).call;
      forall i | root < i < k
        ensures r[i].call != 0
      {
        assert Unlink(r[i]).call == Unlink(nodes[i]).call;
      }
    }
  }

  /** When the stack runs empty, some node after the first has no shallower predecessor. */
  lemma NoParentNotLinkable(groups: seq<seq<Line>>, k: nat, nodes: seq<Node>, s0: seq<nat>, node: Node)
    requires NonEmptyGroups(groups) && k < |groups| && |nodes| == k
    requires FusedPrefix(groups, nodes) && StackShape(Depths(nodes), s0)
    requires FuseGroup(groups[k]) == Ok(node) && node.call != 0
    requires forall m :: 0 <= m < |s0| ==> Depths(nodes)[s0[m]] >= node.depth
    ensures !(AllFuse(groups) && Linkable(Fused(groups)))
  {
    if AllFuse(groups) && k > 0 {
      var ns := Fused(groups);
      var ds := Depths(ns);
      AboveStackEntry(Depths(nodes), s0, 0, node.depth);
      forall j | 0 <= j < k
        ensures ds[j] >= ds[k]
      {
        assert ns[j] == Unlink(nodes[j]);
      }
      assert !HasShallower(ds, k);
    }
  }

  /** After the last group the arena is the linked tree of the fused groups. */
  lemma LinkDone(groups: seq<seq<Line>>, nodes: seq<Node>, stack: seq<nat>, root: nat)
    requires NonEmptyGroups(groups) && |groups| > 0 && LinkState(groups, |groups|, nodes, stack, root)
    ensures AllFuse(groups) && Linkable(Fused(groups))
    ensures BuiltFrom(Fused(groups), RunTree(nodes[root].run, root, nodes))
  {
    var ns := Fused(groups);
    assert forall i :: 0 <= i < |ns| ==> ns[i] == Unlink(nodes[i]);
    assert Depths(ns) == Depths(nodes);
  }

  /**
   * One iteration of `build`'s loop: fuse group `k`; a call-0 node becomes the
   * root, any other node pops the stack down to its nearest shallower
   * ancestor and is attached under it; the new node is pushed.
   */
  method LinkOne(groups: seq<seq<Line>>, k: nat, nodes: seq<Node>, stack: seq<nat>, root: nat)
    returns (r: Result<(seq<Node>, seq<nat>, nat), BuildError>)
    requires NonEmptyGroups(groups) && k < |groups| && LinkState(groups, k, nodes, stack, root)
    ensures r.Err? ==> !(AllFuse(groups) && Linkable(Fused(groups)))
    ensures r.Ok? ==> LinkState(groups, k + 1, r.value.0, r.value.1, r.value.2)
  {
    var fused := FuseGroup(groups[k]);
    if fused.Err? {
      return Err(fused.error);
    }
    var node := fused.value;
    if node.call == 0 {
      RootStep(groups, k, nodes, stack, root, node);
      return Ok((nodes + [node], stack + [k], k));
    }
    var top := stack;
    while |top| > 0 && nodes[top[|top| - 1]].depth >= node.depth
      invariant |top| <= |stack| && top == stack[..|top|]
      invariant forall m :: |top| <= m < |stack| ==> Depths(nodes)[stack[m]] >= node.depth
    {
      top := top[..|top| - 1];
    }
    if |top| == 0 {
      NoParentNotLinkable(groups, k, nodes, stack, node);
      return Err(NoParent(node.run, node.call));
    }
    AttachStep(groups, k, nodes, stack, top, root, node);
    return Ok((Attach(nodes, top[|top| - 1], node), top + [k], root));
  }

  /** `build`'s `for k, val in groupby(...)` loop, after the sort, on the arena. */
  method Link(groups: seq<seq<Line>>) returns (r: Result<RunTree, BuildError>)
    requires NonEmptyGroups(groups)
    ensures r.Ok? <==> AllFuse(groups) && Linkable(Fused(groups))
    ensures r.Ok? ==> AllFuse(groups) && BuiltFrom(Fused(groups), r.value)
  {
    if |groups| == 0 {
      return Err(EmptyRun);
    }
    var nodes: seq<Node> := [];
    var stack: seq<nat> := [];
    var root: nat := 0;
    var k := 0;
    while k < |groups|
      invariant k <= |groups| && LinkState(groups, k, nodes, stack, root)
    {
      var step := LinkOne(groups, k, nodes, stack, root);
      if step.Err? {
        return Err(step.error);
      }
      nodes, stack, root := step.value.0, step.value.1, step.value.2;
      k := k + 1;
    }
    LinkDone(groups, nodes, stack, root);
    r := Ok(RunTree(nodes[root].run, root, nodes));
  }

  /**
   * `RunTree.build`: sorts the run's lines in place by call id (entry line
   * first), groups them by (run id, call id), fuses every group into a node
   * and links the nodes with the stack of open ancestors.
   */
  method Build(vals: array<Line>) returns (r: Result<RunTree, BuildError>)
    modifies vals
    ensures SortedBy(vals[..], CallOrder)
    ensures multiset(vals[..]) == old(multiset(vals[..]))
    ensures var groups := GroupBy(vals[..], Key);
      r.Ok? <==> AllFuse(groups) && Linkable(Fused(groups))
    ensures var groups := GroupBy(vals[..], Key);
      r.Ok? ==> AllFuse(groups) && BuiltFrom(Fused(groups), r.value) && ValidTree(r.value)
  {
    CallOrderTotal();
    InsertionSort(vals, CallOrder);
    var groups := GroupBy(vals[..], Key);
    r := Link(groups);
    if r.Ok? {
      BuiltFromValid(Fused(groups), r.value);
    }
  }
}

=== FILE: sorting.dfy ===
/**
 * The two list primitives the collector leans on: `list.sort` with a
 * comparator (modelled as an in-place insertion sort under a total preorder)
 * and `itertools.groupby` (maximal runs of consecutive elements sharing a key).
 */
module Sorting {

  /** `le` is total and transitive, the shape of every comparator the collector passes to `sort`. */
  ghost predicate TotalPreorder<T(!new)>(le: (T, T) -> bool)
  {
    && (forall x, y :: le(x, y) || le(y, x))
    && (forall x, y, z :: le(x, y) && le(y, z) ==> le(x, z))
  }

  predicate SortedBy<T>(s: seq<T>, le: (T, T) -> bool)
  {
    forall i, j :: 0 <= i < j < |s| ==> le(s[i], s[j])
  }

  /** Sorts `a` in place: afterwards it is ordered by `le` and holds the same elements. */
  method InsertionSort<T(!new)>(a: array<T>, le: (T, T) -> bool)
    requires TotalPreorder(le)
    modifies a
    ensures SortedBy(a[..], le)
    ensures multiset(a[..]) == old(multiset(a[..]))
  {
    if a.Length == 0 {
      return;
    }
    var i := 1;
    while i < a.Length
      invariant 1 <= i <= a.Length
      invariant forall p, q :: 0 <= p < q < i ==> le(a[p], a[q])
      invariant multiset(a[..]) == old(multiset(a[..]))
    {
      var j := i;
      while j > 0 && !le(a[j - 1], a[j])
        invariant 0 <= j <= i
        invariant forall p, q :: 0 <= p < q <= i && p != j && q != j ==> le(a[p], a[q])
        invariant forall q :: j < q <= i ==> le(a[j], a[q])
        invariant multiset(a[..]) == old(multiset(a[..]))
      {
        a[j - 1], a[j] := a[j], a[j - 1];
        j := j - 1;
      }
      i := i + 1;
    }
  }

  function Flatten<T>(g: seq<seq<T>>): (s: seq<T>)
  {
    if |g| == 0 then [] else g[0] + Flatten(g[1..])
  }

  /** Every element of every group is an element of the flattened sequence. */
  lemma {:induction false} FlattenMember<T>(g: seq<seq<T>>, k: nat, i: nat)
    requires k < |g| && i < |g[k]|
    ensures g[k][i] in Flatten(g)
  {
    if k > 0 {
      FlattenMember(g[1..], k - 1, i);
      assert g[1..][k - 1] == g[k];
    }
  }

  /** Every element of the flattened sequence comes from some group. */
  lemma {:induction false} FlattenIndex<T>(g: seq<seq<T>>, p: nat) returns (k: nat, i: nat)
    requires p < |Flatten(g)|
    ensures k < |g| && i < |g[k]| && g[k][i] == Flatten(g)[p]
  {
    if p < |g[0]| {
      k, i := 0, p;
    } else {
      var k', i' := FlattenIndex(g[1..], p - |g[0]|);
      assert g[1..][k'] == g[k' + 1];
      k, i := k' + 1, i';
    }
  }

  /** `groupby(s, key)`: the maximal runs of consecutive elements with equal keys. */
  function GroupBy<T, K(==)>(s: seq<T>, key: T -> K): (g: seq<seq<T>>)
    ensures Flatten(g) == s
    ensures |g| == 0 <==> |s| == 0
    ensures forall k :: 0 <= k < |g| ==> |g[k]| > 0
    ensures forall k, i :: 0 <= k < |g| && 0 <= i < |g[k]| ==> key(g[k][i]) == key(g[k][0])
    ensures forall k :: 0 < k < |g| ==> key(g[k][0]) != key(g[k - 1][0])
    ensures |g| > 0 ==> g[0][0] == s[0]
  {
    if |s| == 0 then []
    else
      var rest := GroupBy(s[1..], key);
      if |rest| > 0 && key(rest[0][0]) == key(s[0]) then
        var g := [[s[0]] + rest[0]] + rest[1..];
        assert g[1..] == rest[1..];
        assert Flatten(rest) == rest[0] + Flatten(rest[1..]);
        assert s == [s[0]] + s[1..];
        g
      else
        var g := [[s[0]]] + rest;
        assert g[1..] == rest;
        g
  }

  /** No two of the (non-empty) groups `g` share a key. */
  ghost predicate GroupKeysDistinct<T, K>(g: seq<seq<T>>, key: T -> K)
    requires forall k :: 0 <= k < |g| ==> |g[k]| > 0
  {
    forall i, j :: 0 <= i < j < |g| ==> key(g[i][0]) != key(g[j][0])
  }

  /** Reflexive and antisymmetric: enough of an order on keys for counting groups. */
  ghost predicate Antisymmetric<K(!new)>(le: (K, K) -> bool)
  {
    && (forall x :: le(x, x))
    && (forall x, y :: le(x, y) && le(y, x) ==> x == y)
  }

  /** In a key-sorted sequence, the first key is below the first key of every later group. */
  lemma {:induction false} GroupHeadsAfter<T, K(!new)>(s: seq<T>, key: T -> K, le: (K, K) -> bool)
    requires |s| > 1
    requires Antisymmetric(le)
    requires forall i, j :: 0 <= i < j < |s| ==> le(key(s[i]), key(s[j]))
    ensures forall m :: 0 <= m < |GroupBy(s[1..], key)| ==>
      le(key(s[0]), key(GroupBy(s[1..], key)[m][0])) && le(key(s[1]), key(GroupBy(s[1..], key)[m][0]))
  {
    var rest := GroupBy(s[1..], key);
    forall m | 0 <= m < |rest|
      ensures le(key(s[0]), key(rest[m][0])) && le(key(s[1]), key(rest[m][0]))
    {
      FlattenMember(rest, m, 0);
      var p :| 0 <= p < |s[1..]| && s[1..][p] == rest[m][0];
      assert s[p + 1] == rest[m][0];
      if p > 0 {
        assert le(key(s[1]), key(s[p + 1]));
      } else {
        assert le(key(s[0]), key(s[1]));
      }
    }
  }

  /**
   * When the input is sorted by its keys under an antisymmetric order, no two
   * groups share a key: there is exactly one group per distinct key.
   */
  lemma {:induction false} SortedGroupKeysDistinct<T, K(!new)>(s: seq<T>, key: T -> K, le: (K, K) -> bool)
    requires Antisymmetric(le)
    requires forall i, j :: 0 <= i < j < |s| ==> le(key(s[i]), key(s[j]))
    ensures GroupKeysDistinct(GroupBy(s, key), key)
  {
    if |s| > 1 {
      var rest := GroupBy(s[1..], key);
      SortedGroupKeysDistinct(s[1..], key, le);
      GroupHeadsAfter(s, key, le);
      assert rest[0][0] == s[1];
      var g := GroupBy(s, key);
      if key(rest[0][0]) == key(s[0]) {
        assert |g| == |rest| && g[0][0] == s[0];
        forall i, j | 0 <= i < j < |g|
          ensures key(g[i][0]) != key(g[j][0])
        {
          assert g[j] == rest[j];
          if i > 0 {
            assert g[i] == rest[i];
          }
        }
      } else {
        assert |g| == |rest| + 1 && g[0][0] == s[0];
        forall i, j | 0 <= i < j < |g|
          ensures key(g[i][0]) != key(g[j][0])
        {
          assert g[j] == rest[j - 1];
          if i > 0 {
            assert g[i] == rest[i - 1];
          } else if j > 1 {
            assert le(key(s[1]), key(rest[j - 1][0]));
            assert key(rest[j - 1][0]) != key(rest[0][0]);
          }
        }
      }
    }
  }

  /** When the input is sorted by its keys, the groups come in key order. */
  lemma {:induction false} SortedGroupHeadsOrdered<T, K(!new)>(s: seq<T>, key: T -> K, le: (K, K) -> bool)
    requires Antisymmetric(le)
    requires forall i, j :: 0 <= i < j < |s| ==> le(key(s[i]), key(s[j]))
    ensures forall i, j :: 0 <= i < j < |GroupBy(s, key)| ==>
      le(key(GroupBy(s, key)[i][0]), key(GroupBy(s, key)[j][0]))
  {
    if |s| > 1 {
      var rest := GroupBy(s[1..], key);
      SortedGroupHeadsOrdered(s[1..], key, le);
      GroupHeadsAfter(s, key, le);
      assert rest[0][0] == s[1];
      var g := GroupBy(s, key);
      var shift := if key(rest[0][0]) == key(s[0]) then 0 else 1;
      assert |g| == |rest| + shift && g[0][0] == s[0];
      forall i, j | 0 <= i < j < |g|
        ensures le(key(g[i][0]), key(g[j][0]))
      {
        assert g[j] == rest[j - shift];
        if i > 0 {
          assert g[i] == rest[i - shift];
        }
      }
    }
  }
}

=== FILE: stats.dfy ===
/**
 * The per-function statistics record (`FuncStats` in common.py) and its merge.
 *
 * Callers and callees are lists in the source; a merge turns them into
 * `list(set(...))`, whose order is the hash order of the set. The model keeps
 * them as sequences and makes the merged lists duplicate-free in
 * first-occurrence order; every property below speaks of their element sets
 * only, so it holds for any order.
 */
module Stats {
  import opened Wrappers

  datatype FuncStats = FuncStats(
    name: string,
    totalTime: int,
    contribTime: int,
    depths: seq<int>,
    callCount: int,
    callers: seq<string>,
    callees: seq<string>)

  function Elems(xs: seq<string>): set<string>
  {
    set x | x in xs
  }

  predicate NoDuplicates(xs: seq<string>)
  {
    forall i, j :: 0 <= i < j < |xs| ==> xs[i] != xs[j]
  }

  /** `list(set(xs))`: the distinct elements of `xs`, each once. */
  function Dedup(xs: seq<string>): (r: seq<string>)
    ensures NoDuplicates(r)
    ensures Elems(r) == Elems(xs)
    ensures |r| <= |xs|
  {
    if |xs| == 0 then []
    else
      var front := Dedup(xs[..|xs| - 1]);
      var last := xs[|xs| - 1];
      assert xs == xs[..|xs| - 1] + [last];
      assert Elems(xs) == Elems(xs[..|xs| - 1]) + {last};
      assert Elems(front + [last]) == Elems(front) + {last};
      if last in front then front else front + [last]
  }

  /**
   * `FuncStats.merge`: defined only for records of the same function; the
   * source falls through to `None` otherwise. The inputs are values, so they
   * are left unchanged and the result is a new record.
   */
  function Merge(a: FuncStats, b: FuncStats): (r: Option<FuncStats>)
    ensures r.Some? <==> a.name == b.name
    ensures r.Some? ==>
      && r.value.name == a.name
      && r.value.totalTime == a.totalTime + b.totalTime
      && r.value.contribTime == a.contribTime + b.contribTime
      && r.value.callCount == a.callCount + b.callCount
      && r.value.depths == a.depths + b.depths
      && |r.value.depths| == |a.depths| + |b.depths|
      && NoDuplicates(r.value.callers) && Elems(r.value.callers) == Elems(a.callers) + Elems(b.callers)
      && NoDuplicates(r.value.callees) && Elems(r.value.callees) == Elems(a.callees) + Elems(b.callees)
  {
    if a.name == b.name then
      Some(FuncStats(
        a.name,
        a.totalTime + b.totalTime,
        a.contribTime + b.contribTime,
        a.depths + b.depths,
        a.callCount + b.callCount,
        Dedup(a.callers + b.callers),
        Dedup(a.callees + b.callees)))
    else
      None
  }

  /**
   * What a record says once list order is forgotten: sums, the multiset of
   * depths and the sets of callers and callees. Merge adds summaries.
   */
  datatype Summary = Summary(
    totalTime: int,
    contribTime: int,
    depths: multiset<int>,
    callCount: int,
    callers: set<string>,
    callees: set<string>)

  function Abstract(f: FuncStats): Summary
  {
    Summary(f.totalTime, f.contribTime, multiset(f.depths), f.callCount, Elems(f.callers), Elems(f.callees))
  }

  function Plus(x: Summary, y: Summary): Summary
  {
    Summary(
      x.totalTime + y.totalTime,
      x.contribTime + y.contribTime,
      x.depths + y.depths,
      x.callCount + y.callCount,
      x.callers + y.callers,
      x.callees + y.callees)
  }

  const Zero := Summary(0, 0, multiset{}, 0, {}, {})

  /** The sum of the summaries of all records in `fs`, in any order. */
  function SummaryOf(fs: seq<FuncStats>): Summary
  {
    if |fs| == 0 then Zero else Plus(SummaryOf(fs[..|fs| - 1]), Abstract(fs[|fs| - 1]))
  }

  /** Two records are equivalent when they agree on the name and on everything but list order. */
  predicate Equiv(a: FuncStats, b: FuncStats)
  {
    a.name == b.name && Abstract(a) == Abstract(b)
  }

  /** Merging adds summaries. */
  lemma MergeAbstract(a: FuncStats, b: FuncStats)
    requires a.name == b.name
    ensures Abstract(Merge(a, b).value) == Plus(Abstract(a), Abstract(b))
  {
  }

  lemma MergeCommutative(a: FuncStats, b: FuncStats)
    requires a.name == b.name
    ensures Equiv(Merge(a, b).value, Merge(b, a).value)
  {
    MergeAbstract(a, b);
    MergeAbstract(b, a);
  }

  lemma MergeAssociative(a: FuncStats, b: FuncStats, c: FuncStats)
    requires a.name == b.name == c.name
    ensures Equiv(Merge(Merge(a, b).value, c).value, Merge(a, Merge(b, c).value).value)
  {
    var ab := Merge(a, b).value;
    var bc := Merge(b, c).value;
    MergeAbstract(a, b);
    MergeAbstract(b, c);
    MergeAbstract(ab, c);
    MergeAbstract(a, bc);
    PlusAssociative(Abstract(a), Abstract(b), Abstract(c));
  }

  predicate SameName(fs: seq<FuncStats>)
  {
    forall i :: 0 <= i < |fs| ==> fs[i].name == fs[0].name
  }

  /**
   * `reduce(lambda x, y: x.merge(y), g)` over a non-empty run of records of
   * one function: a left fold. Its summary is the sum of the parts.
   */
  function FoldMerge(fs: seq<FuncStats>): (r: FuncStats)
    requires |fs| > 0 && SameName(fs)
    ensures r.name == fs[0].name
    ensures Abstract(r) == SummaryOf(fs)
  {
    if |fs| == 1 then fs[0]
    else
      var front := fs[..|fs| - 1];
      var acc := FoldMerge(front);
      MergeAbstract(acc, fs[|fs| - 1]);
      Merge(acc, fs[|fs| - 1]).value
  }

  lemma PlusAssociative(x: Summary, y: Summary, z: Summary)
    ensures Plus(Plus(x, y), z) == Plus(x, Plus(y, z))
  {
  }

  lemma PlusZero(x: Summary)
    ensures Plus(x, Zero) == x
  {
    assert x.depths + multiset{} == x.depths;
    assert x.callers + {} == x.callers && x.callees + {} == x.callees;
  }

  lemma {:induction false} SummaryOfAppend(a: seq<FuncStats>, b: seq<FuncStats>)
    ensures SummaryOf(a + b) == Plus(SummaryOf(a), SummaryOf(b))
    decreases |b|
  {
    if |b| > 0 {
      var b' := b[..|b| - 1];
      var last := Abstract(b[|b| - 1]);
      assert SummaryOf(a + b) == Plus(SummaryOf(a + b'), last) by {
        assert (a + b)[..|a + b| - 1] == a + b';
        assert (a + b)[|a + b| - 1] == b[|b| - 1];
      }
      assert SummaryOf(b) == Plus(SummaryOf(b'), last);
      SummaryOfAppend(a, b');
      PlusAssociative(SummaryOf(a), SummaryOf(b'), last);
    } else {
      assert a + b == a;
      PlusZero(SummaryOf(a));
    }
  }

  lemma PlusSwap(x: Summary, y: Summary, z: Summary)
    ensures Plus(Plus(x, y), z) == Plus(Plus(x, z), y)
  {
  }

  lemma SplitAround<T>(b: seq<T>, k: nat)
    requires k < |b|
    ensures b == (b[..k] + [b[k]]) + b[k + 1..]
  {
  }

  lemma SplitLast<T>(b: seq<T>)
    requires |b| > 0
    ensures b == b[..|b| - 1] + [b[|b| - 1]]
  {
  }

  /** Taking one record out of a sequence takes its summary out of the sum. */
  lemma SummaryOfRemove(b: seq<FuncStats>, k: nat)
    requires k < |b|
    ensures SummaryOf(b) == Plus(SummaryOf(b[..k] + b[k + 1..]), Abstract(b[k]))
  {
    var x, l, r := b[k], b[..k], b[k + 1..];
    SplitAround(b, k);
    calc {
      SummaryOf(b);
      { SummaryOfAppend(l + [x], r); }
      Plus(SummaryOf(l + [x]), SummaryOf(r));
      { SummaryOfSnoc(l, x); }
      Plus(Plus(SummaryOf(l), Abstract(x)), SummaryOf(r));
      { PlusSwap(SummaryOf(l), Abstract(x), SummaryOf(r)); }
      Plus(Plus(SummaryOf(l), SummaryOf(r)), Abstract(x));
      { SummaryOfAppend(l, r); }
      Plus(SummaryOf(l + r), Abstract(x));
    }
  }

  lemma MultisetRemove(b: seq<FuncStats>, k: nat)
    requires k < |b|
    ensures multiset(b[..k] + b[k + 1..]) == multiset(b) - multiset{b[k]}
  {
    SplitAround(b, k);
  }

  /** The summary of a sequence of records does not depend on their order: merge order does not matter. */
  lemma {:induction false} SummaryOfPermutation(a: seq<FuncStats>, b: seq<FuncStats>)
    requires multiset(a) == multiset(b)
    ensures SummaryOf(a) == SummaryOf(b)
    decreases |a|
  {
    if |a| > 0 {
      var x := a[|a| - 1];
      var a' := a[..|a| - 1];
      assert x in multiset(b) by {
        assert x in a;
      }
      var k :| 0 <= k < |b| && b[k] == x;
      var b' := b[..k] + b[k + 1..];
      MultisetRemove(a, |a| - 1);
      MultisetRemove(b, k);
      assert a[..|a| - 1] + a[|a|..] == a';
      SummaryOfPermutation(a', b');
      SummaryOfRemove(b, k);
    } else {
      assert b == [];
    }
  }

  /** The names the records carry. */
  function Names(fs: seq<FuncStats>): set<string>
  {
    set f | f in fs :: f.name
  }

  lemma NamesAppend(fs: seq<FuncStats>, x: FuncStats)
    ensures Names(fs + [x]) == Names(fs) + {x.name}
  {
    assert forall f :: f in fs + [x] <==> f in fs || f == x;
  }

  /** The records of function `n`, in their order in `fs`. */
  function ByName(fs: seq<FuncStats>, n: string): (r: seq<FuncStats>)
    ensures forall j :: 0 <= j < |r| ==> r[j].name == n
    ensures r != [] <==> n in Names(fs)
  {
    if |fs| == 0 then []
    else
      var front := fs[..|fs| - 1];
      var last := fs[|fs| - 1];
      assert fs == front + [last];
      NamesAppend(front, last);
      ByName(front, n) + (if last.name == n then [last] else [])
  }

  lemma {:induction false} ByNameAppend(a: seq<FuncStats>, b: seq<FuncStats>, n: string)
    ensures ByName(a + b, n) == ByName(a, n) + ByName(b, n)
    decreases |b|
  {
    if |b| == 0 {
      assert a + b == a;
    } else {
      var b' := b[..|b| - 1];
      assert (a + b)[..|a + b| - 1] == a + b';
      ByNameAppend(a, b', n);
    }
  }

  /** Filtering by name keeps exactly the records of that name, as often as they occur. */
  lemma {:induction false} ByNameCount(fs: seq<FuncStats>, n: string)
    ensures forall x :: multiset(ByName(fs, n))[x] == if x.name == n then multiset(fs)[x] else 0
  {
    if |fs| > 0 {
      var front := fs[..|fs| - 1];
      assert fs == front + [fs[|fs| - 1]];
      ByNameCount(front, n);
    }
  }

  lemma ByNamePermutation(a: seq<FuncStats>, b: seq<FuncStats>, n: string)
    requires multiset(a) == multiset(b)
    ensures multiset(ByName(a, n)) == multiset(ByName(b, n))
  {
    ByNameCount(a, n);
    ByNameCount(b, n);
  }

  /** Replacing one record by one whose summary adds `d` to it adds `d` to the sum. */
  lemma SummaryOfUpdate(s: seq<FuncStats>, p: nat, y: FuncStats, d: Summary)
    requires p < |s| && Abstract(y) == Plus(Abstract(s[p]), d)
    ensures SummaryOf(s[p := y]) == Plus(SummaryOf(s), d)
  {
    var s' := s[p := y];
    SummaryOfRemove(s, p);
    SummaryOfRemove(s', p);
    assert s'[..p] + s'[p + 1..] == s[..p] + s[p + 1..];
    PlusAssociative(SummaryOf(s[..p] + s[p + 1..]), Abstract(s[p]), d);
  }

  lemma SummaryOfSingle(x: FuncStats)
    ensures SummaryOf([x]) == Abstract(x)
  {
    assert multiset{} + multiset(x.depths) == multiset(x.depths);
    assert {} + Elems(x.callers) == Elems(x.callers) && {} + Elems(x.callees) == Elems(x.callees);
  }

  lemma SummaryOfSnoc(s: seq<FuncStats>, x: FuncStats)
    ensures SummaryOf(s + [x]) == Plus(SummaryOf(s), Abstract(x))
  {
    assert (s + [x])[..|s|] == s;
  }

  /** The seven fields of the machine-readable form, in the order `__repr__` writes them. */
  datatype Field = Text(s: string) | Number(n: int) | Numbers(ns: seq<int>) | Texts(ts: seq<string>)

  function MachineFields(f: FuncStats): (r: seq<Field>)
    ensures |r| == 7
    ensures r[0] == Text(f.name) && r[1] == Number(f.totalTime) && r[2] == Number(f.contribTime)
    ensures r[3] == Numbers(f.depths) && r[4] == Number(f.callCount)
    ensures r[5] == Texts(f.callers) && r[6] == Texts(f.callees)
  {
    [Text(f.name), Number(f.totalTime), Number(f.contribTime), Numbers(f.depths),
     Number(f.callCount), Texts(f.callers), Texts(f.callees)]
  }

  /** Reads a record back from seven fields in `__repr__` order; any other shape is refused. */
  function FromMachineFields(fs: seq<Field>): (r: Option<FuncStats>)
    ensures r.Some? ==> MachineFields(r.value) == fs
  {
    if |fs| == 7 && fs[0].Text? && fs[1].Number? && fs[2].Number? && fs[3].Numbers?
       && fs[4].Number? && fs[5].Texts? && fs[6].Texts?
    then Some(FuncStats(fs[0].s, fs[1].n, fs[2].n, fs[3].ns, fs[4].n, fs[5].ts, fs[6].ts))
    else None
  }

  /** The field list determines the record: reading back what `MachineFields` lists gives the record. */
  lemma MachineFieldsRoundTrip(f: FuncStats)
    ensures FromMachineFields(MachineFields(f)) == Some(f)
  {
  }
}

=== FILE: trace_lines.dfy ===
/**
 * One whitespace-split line of the tracer's output, decoded once at the
 * boundary into a tagged value. Entry lines carry six fields
 * (`name run call thread depth start`), return lines four
 * (`name run call total`).
 */
module TraceLines {
  import opened Wrappers

  datatype Line =
    | Entry(name: string, run: int, call: int, thread: int, depth: int, start: int)
    | Return(name: string, run: int, call: int, total: int)

  datatype LineError = WrongFieldCount(count: nat) | NotANumber(field: string)

  /** How many whitespace-separated fields the line had. */
  function FieldCount(l: Line): nat
  {
    if l.Entry? then 6 else 4
  }

  /** The integer value of the line's last field (`val[-1]` in the source). */
  function LastField(l: Line): int
  {
    match l
    case Entry(_, _, _, _, _, start) => start
    case Return(_, _, _, total) => total
  }

  predicate IsDigit(c: char)
  {
    '0' <= c <= '9'
  }

  predicate AllDigits(s: string)
  {
    forall i :: 0 <= i < |s| ==> IsDigit(s[i])
  }

  function DigitValue(c: char): nat
    requires IsDigit(c)
  {
    c as int - '0' as int
  }

  function DigitsValue(s: string): nat
    requires AllDigits(s)
  {
    if |s| == 0 then 0 else 10 * DigitsValue(s[..|s| - 1]) + DigitValue(s[|s| - 1])
  }

  /** A base-10 numeral as Python's `int()` reads a whitespace-free token: an optional sign and at least one digit. */
  predicate IsNumeral(s: string)
  {
    if |s| > 0 && (s[0] == '-' || s[0] == '+') then |s| > 1 && AllDigits(s[1..])
    else |s| > 0 && AllDigits(s)
  }

  /** `int(token)`. */
  function ParseInt(s: string): (r: Option<int>)
    ensures r.Some? <==> IsNumeral(s)
    ensures r.Some? && AllDigits(s) ==> r.value == DigitsValue(s)
    ensures r.Some? && s[0] == '-' ==> r.value == -(DigitsValue(s[1..]) as int)
    ensures r.Some? && s[0] == '+' ==> r.value == DigitsValue(s[1..])
  {
    if |s| > 0 && s[0] == '-' then
      if |s| > 1 && AllDigits(s[1..]) then Some(-(DigitsValue(s[1..]) as int)) else None
    else if |s| > 0 && s[0] == '+' then
      if |s| > 1 && AllDigits(s[1..]) then Some(DigitsValue(s[1..])) else None
    else if |s| > 0 && AllDigits(s) then Some(DigitsValue(s))
    else None
  }

  function DigitChar(d: nat): (c: char)
    requires d < 10
    ensures IsDigit(c) && DigitValue(c) == d
  {
    ('0' as int + d) as char
  }

  /** The decimal digits of `n`, without leading zeros. */
  function FormatNat(n: nat): (s: string)
    ensures |s| > 0 && AllDigits(s)
  {
    if n < 10 then [DigitChar(n)] else FormatNat(n / 10) + [DigitChar(n % 10)]
  }

  /** `%d` as the tracer prints an integer. */
  function FormatInt(n: int): string
  {
    if n < 0 then "-" + FormatNat(-n) else FormatNat(n)
  }

  lemma {:induction false} FormatNatValue(n: nat)
    ensures DigitsValue(FormatNat(n)) == n
  {
    if n >= 10 {
      var s := FormatNat(n);
      assert s[..|s| - 1] == FormatNat(n / 10);
      FormatNatValue(n / 10);
    }
  }

  /** Reading back what the tracer printed gives the printed integer. */
  lemma ParseFormatInt(n: int)
    ensures ParseInt(FormatInt(n)) == Some(n)
  {
    if n < 0 {
      FormatNatValue(-n);
      assert FormatInt(n)[1..] == FormatNat(-n);
    } else {
      FormatNatValue(n);
      assert FormatNat(n)[0] != '-' && FormatNat(n)[0] != '+';
    }
  }

  function ParseFields(fs: seq<string>): (r: Result<seq<int>, LineError>)
    ensures r.Ok? <==> forall i :: 0 <= i < |fs| ==> ParseInt(fs[i]).Some?
    ensures r.Ok? ==> |r.value| == |fs| && forall i :: 0 <= i < |fs| ==> ParseInt(fs[i]) == Some(r.value[i])
  {
    if |fs| == 0 then Ok([])
    else
      match ParseInt(fs[0])
      case None => Err(NotANumber(fs[0]))
      case Some(n) =>
        match ParseFields(fs[1..])
        case Err(e) => Err(e)
        case Ok(ns) =>
          assert forall i :: 1 <= i < |fs| ==> fs[i] == fs[1..][i - 1];
          Ok([n] + ns)
  }

  /**
   * Decodes the fields of one line: six fields make an entry line, four a
   * return line, every field but the first must be an integer numeral.
   */
  function DecodeLine(fields: seq<string>): (r: Result<Line, LineError>)
    ensures r.Ok? <==> (|fields| == 6 || |fields| == 4) && forall i :: 1 <= i < |fields| ==> IsNumeral(fields[i])
    ensures r.Ok? ==> FieldCount(r.value) == |fields| && r.value.name == fields[0]
    ensures r.Ok? ==> Some(r.value.run) == ParseInt(fields[1]) && Some(r.value.call) == ParseInt(fields[2])
                      && Some(LastField(r.value)) == ParseInt(fields[|fields| - 1])
    ensures r.Ok? && r.value.Entry? ==>
      && Some(r.value.thread) == ParseInt(fields[3]) && Some(r.value.depth) == ParseInt(fields[4])
      && Some(r.value.start) == ParseInt(fields[5])
    ensures r.Ok? && r.value.Return? ==> Some(r.value.total) == ParseInt(fields[3])
  {
    if |fields| != 6 && |fields| != 4 then Err(WrongFieldCount(|fields|))
    else
      match ParseFields(fields[1..])
      case Err(e) => Err(e)
      case Ok(ns) =>
        assert forall i :: 1 <= i < |fields| ==> fields[i] == fields[1..][i - 1];
        if |fields| == 6 then Ok(Entry(fields[0], ns[0], ns[1], ns[2], ns[3], ns[4]))
        else Ok(Return(fields[0], ns[0], ns[1], ns[2]))
  }

  /** The fields the tracer prints for a line. */
  function EncodeLine(l: Line): (fields: seq<string>)
  {
    match l
    case Entry(name, run, call, thread, depth, start) =>
      [name, FormatInt(run), FormatInt(call), FormatInt(thread), FormatInt(depth), FormatInt(start)]
    case Return(name, run, call, total) =>
      [name, FormatInt(run), FormatInt(call), FormatInt(total)]
  }

  /** Every line the tracer prints decodes back to itself. */
  lemma DecodeEncodeLine(l: Line)
    ensures DecodeLine(EncodeLine(l)) == Ok(l)
  {
    var fs := EncodeLine(l);
    forall i | 1 <= i < |fs|
      ensures ParseInt(fs[i]) == Some(if l.Entry? then [l.run, l.call, l.thread, l.depth, l.start][i - 1]
                                      else [l.run, l.call, l.total][i - 1])
    {
      if l.Entry? {
        ParseFormatInt([l.run, l.call, l.thread, l.depth, l.start][i - 1]);
      } else {
        ParseFormatInt([l.run, l.call, l.total][i - 1]);
      }
    }
    var r := ParseFields(fs[1..]);
    assert forall i :: 1 <= i < |fs| ==> fs[i] == fs[1..][i - 1];
    assert r.Ok?;
  }

  /** Entry lines rank before return lines of the same call. */
  function KindRank(l: Line): nat
  {
    if l.Entry? then 0 else 1
  }

  /**
   * The order `RunTree.build` sorts a run's lines into: by call id, and for one
   * call id the entry line before the return line.
   */
  predicate CallOrder(x: Line, y: Line)
  {
    x.call < y.call || (x.call == y.call && KindRank(x) <= KindRank(y))
  }

  /** The source's comparator `comp` inside `build`, as a three-way integer. */
  function BuildComp(x: Line, y: Line): int
  {
    if FieldCount(x) != FieldCount(y) && x.call == y.call then FieldCount(y) - FieldCount(x)
    else x.call - y.call
  }

  /** `CallOrder` is exactly "the comparator does not put x after y". */
  lemma CallOrderIsBuildComp(x: Line, y: Line)
    ensures CallOrder(x, y) <==> BuildComp(x, y) <= 0
    ensures x.call == y.call && x.Entry? && y.Return? ==> BuildComp(x, y) < 0
  {
  }

  /** The order `main` sorts all lines into: by run id. */
  predicate RunOrder(x: Line, y: Line)
  {
    x.run <= y.run
  }
}

=== FILE: traversal.dfy ===
/**
 * `RunTree.preorder_map` and `RunTree.postorder_map`: the node orders they
 * visit, as functions on the arena, and the methods that apply a function to
 * every node of the tree below the root, accumulating the results in a list.
 */
module Traversals {
  import opened Wrappers
  import opened RunTrees

  /** Node `v`, then the subtree of each of its children in child order. */
  function Preorder(t: RunTree, v: nat): (r: seq<nat>)
    requires ValidTree(t) && v < |t.nodes|
    ensures |r| > 0 && r[0] == v
    ensures forall i :: 0 <= i < |r| ==> v <= r[i] < |t.nodes|
    decreases |t.nodes| - v, 1, 0
  {
    [v] + PreorderFrom(t, v, 0)
  }

  /** The preorder subtrees of the children of `v` from the `m`-th on. */
  function PreorderFrom(t: RunTree, v: nat, m: nat): (r: seq<nat>)
    requires ValidTree(t) && v < |t.nodes| && m <= |t.nodes[v].children|
    ensures forall i :: 0 <= i < |r| ==> v < r[i] < |t.nodes|
    decreases |t.nodes| - v, 0, |t.nodes[v].children| - m
  {
    if m == |t.nodes[v].children| then []
    else Preorder(t, t.nodes[v].children[m]) + PreorderFrom(t, v, m + 1)
  }

  /** The subtree of each child of `v` in child order, then `v` itself. */
  function Postorder(t: RunTree, v: nat): (r: seq<nat>)
    requires ValidTree(t) && v < |t.nodes|
    ensures |r| > 0 && r[|r| - 1] == v
    ensures forall i :: 0 <= i < |r| ==> v <= r[i] < |t.nodes|
    decreases |t.nodes| - v, 1, 0
  {
    PostorderFrom(t, v, 0) + [v]
  }

  function PostorderFrom(t: RunTree, v: nat, m: nat): (r: seq<nat>)
    requires ValidTree(t) && v < |t.nodes| && m <= |t.nodes[v].children|
    ensures forall i :: 0 <= i < |r| ==> v < r[i] < |t.nodes|
    decreases |t.nodes| - v, 0, |t.nodes[v].children| - m
  {
    if m == |t.nodes[v].children| then []
    else Postorder(t, t.nodes[v].children[m]) + PostorderFrom(t, v, m + 1)
  }

  /** Node `j` lies in the subtree of `v`: following parents from `j` reaches `v`. */
  predicate Descends(t: RunTree, j: nat, v: nat)
    requires ValidTree(t) && j < |t.nodes|
    decreases j
  {
    j == v || (t.nodes[j].parent.Some? && Descends(t, t.nodes[j].parent.value, v))
  }

  lemma {:induction false} DescendsAtLeast(t: RunTree, j: nat, v: nat)
    requires ValidTree(t) && j < |t.nodes| && Descends(t, j, v)
    ensures v <= j
    decreases j
  {
    if j != v {
      DescendsAtLeast(t, t.nodes[j].parent.value, v);
    }
  }

  /** The subtree of a child of `v` lies in the subtree of `v`. */
  lemma {:induction false} DescendsThroughChild(t: RunTree, x: nat, c: nat, v: nat)
    requires ValidTree(t) && x < |t.nodes| && c < |t.nodes| && t.nodes[c].parent == Some(v)
    requires Descends(t, x, c)
    ensures Descends(t, x, v)
    decreases x
  {
    if x == c {
      assert Descends(t, v, v);
    } else {
      DescendsThroughChild(t, t.nodes[x].parent.value, c, v);
    }
  }

  /** A node lies in the subtree of at most one child of a given node. */
  lemma {:induction false} SiblingsDisjoint(t: RunTree, x: nat, c1: nat, c2: nat, v: nat)
    requires ValidTree(t) && x < |t.nodes| && c1 < |t.nodes| && c2 < |t.nodes|
    requires t.nodes[c1].parent == Some(v) && t.nodes[c2].parent == Some(v)
    requires Descends(t, x, c1) && Descends(t, x, c2)
    ensures c1 == c2
    decreases x
  {
    if x == c1 && x != c2 {
      DescendsAtLeast(t, v, c2);
    } else if x == c2 && x != c1 {
      DescendsAtLeast(t, v, c1);
    } else if x != c1 && x != c2 {
      SiblingsDisjoint(t, t.nodes[x].parent.value, c1, c2, v);
    }
  }

  lemma {:induction false} ChildrenIncreasing(t: RunTree, p: nat, m1: nat, m2: nat)
    requires ValidTree(t) && p < |t.nodes| && m1 < m2 < |t.nodes[p].children|
    ensures t.nodes[p].children[m1] < t.nodes[p].children[m2]
    decreases m2
  {
    if m1 < m2 - 1 {
      ChildrenIncreasing(t, p, m1, m2 - 1);
    }
  }

  /** Every node a preorder lists lies in the subtree. */
  lemma {:induction false} PreorderSound(t: RunTree, v: nat)
    requires ValidTree(t) && v < |t.nodes|
    ensures forall x :: x in Preorder(t, v) ==> Descends(t, x, v)
    decreases |t.nodes| - v, 1, 0
  {
    var cs := t.nodes[v].children;
    PreorderFromSound(t, v, 0);
    forall x | x in Preorder(t, v)
      ensures Descends(t, x, v)
    {
      if x != v {
        assert x in PreorderFrom(t, v, 0);
        var m :| 0 <= m < |cs| && Descends(t, x, cs[m]);
        DescendsThroughChild(t, x, cs[m], v);
      }
    }
  }

  lemma {:induction false} PreorderFromSound(t: RunTree, v: nat, m: nat)
    requires ValidTree(t) && v < |t.nodes| && m <= |t.nodes[v].children|
    ensures forall x :: x in PreorderFrom(t, v, m) ==>
      exists m' :: m <= m' < |t.nodes[v].children| && Descends(t, x, t.nodes[v].children[m'])
    decreases |t.nodes| - v, 0, |t.nodes[v].children| - m
  {
    var cs := t.nodes[v].children;
    if m < |cs| {
      PreorderSound(t, cs[m]);
      PreorderFromSound(t, v, m + 1);
    }
  }

  lemma {:induction false} PreorderFromContains(t: RunTree, v: nat, m0: nat, m: nat)
    requires ValidTree(t) && v < |t.nodes| && m0 <= m < |t.nodes[v].children|
    ensures forall x :: x in Preorder(t, t.nodes[v].children[m]) ==> x in PreorderFrom(t, v, m0)
    decreases m - m0
  {
    if m0 < m {
      PreorderFromContains(t, v, m0 + 1, m);
    }
  }

  /** The child of `v` through which `x` descends from `v`. */
  lemma {:induction false} ChildOnPath(t: RunTree, x: nat, v: nat) returns (m: nat)
    requires ValidTree(t) && x < |t.nodes| && v < |t.nodes| && Descends(t, x, v) && x != v
    ensures m < |t.nodes[v].children| && Descends(t, x, t.nodes[v].children[m])
    decreases x
  {
    var p := t.nodes[x].parent.value;
    if p == v {
      m :| 0 <= m < |t.nodes[v].children| && t.nodes[v].children[m] == x;
    } else {
      m := ChildOnPath(t, p, v);
    }
  }

  /** Every node of the subtree appears in its preorder. */
  lemma {:induction false} PreorderComplete(t: RunTree, v: nat, x: nat)
    requires ValidTree(t) && v < |t.nodes| && x < |t.nodes| && Descends(t, x, v)
    ensures x in Preorder(t, v)
    decreases |t.nodes| - v
  {
    if x != v {
      var m := ChildOnPath(t, x, v);
      PreorderComplete(t, t.nodes[v].children[m], x);
      PreorderFromContains(t, v, 0, m);
    }
  }

  lemma DisjointAppendCount(a: seq<nat>, b: seq<nat>, x: nat)
    requires !(x in a && x in b)
    ensures multiset(a + b)[x] == multiset(a)[x] + multiset(b)[x]
    ensures multiset(a)[x] == 0 || multiset(b)[x] == 0
  {
  }

  /** No node appears twice in a preorder. */
  lemma {:induction false} PreorderDistinct(t: RunTree, v: nat)
    requires ValidTree(t) && v < |t.nodes|
    ensures forall x :: multiset(Preorder(t, v))[x] <= 1
    decreases |t.nodes| - v, 1, 0
  {
    PreorderFromDistinct(t, v, 0);
    forall x | true
      ensures multiset(Preorder(t, v))[x] <= 1
    {
      DisjointAppendCount([v], PreorderFrom(t, v, 0), x);
    }
  }

  lemma {:induction false} PreorderFromDistinct(t: RunTree, v: nat, m: nat)
    requires ValidTree(t) && v < |t.nodes| && m <= |t.nodes[v].children|
    ensures forall x :: multiset(PreorderFrom(t, v, m))[x] <= 1
    decreases |t.nodes| - v, 0, |t.nodes[v].children| - m
  {
    var cs := t.nodes[v].children;
    if m < |cs| {
      var a := Preorder(t, cs[m]);
      var b := PreorderFrom(t, v, m + 1);
      PreorderDistinct(t, cs[m]);
      PreorderFromDistinct(t, v, m + 1);
      PreorderSound(t, cs[m]);
      PreorderFromSound(t, v, m + 1);
      forall x | true
        ensures multiset(a + b)[x] <= 1
      {
        if x in a && x in b {
          var m' :| m + 1 <= m' < |cs| && Descends(t, x, cs[m']);
          SiblingsDisjoint(t, x, cs[m], cs[m'], v);
          ChildrenIncreasing(t, v, m, m');
          assert false;
        }
        DisjointAppendCount(a, b, x);
      }
    }
  }

  /**
   * `preorder_map` returns one entry per node of the tree: the preorder lists
   * each node of the subtree of `v` exactly once and nothing else.
   */
  lemma PreorderOncePerNode(t: RunTree, v: nat)
    requires ValidTree(t) && v < |t.nodes|
    ensures forall x: nat :: multiset(Preorder(t, v))[x] == if x < |t.nodes| && Descends(t, x, v) then 1 else 0
  {
    PreorderSound(t, v);
    PreorderDistinct(t, v);
    forall x: nat | x < |t.nodes| && Descends(t, x, v)
      ensures x in Preorder(t, v)
    {
      PreorderComplete(t, v, x);
    }
  }

  /** When every node but the first has a parent, every node lies in the subtree of the first. */
  lemma {:induction false} DescendsFromFirst(t: RunTree, i: nat)
    requires ValidTree(t) && i < |t.nodes|
    requires forall j :: 0 < j < |t.nodes| ==> t.nodes[j].parent.Some?
    ensures Descends(t, i, 0)
    decreases i
  {
    if i > 0 {
      DescendsFromFirst(t, t.nodes[i].parent.value);
    }
  }

  /** The indices `0 .. n - 1`, in order. */
  function Range(n: nat): (r: seq<nat>)
    ensures |r| == n
  {
    if n == 0 then [] else Range(n - 1) + [n - 1]
  }

  lemma {:induction false} RangeCount(n: nat)
    ensures forall x: nat :: multiset(Range(n))[x] == if x < n then 1 else 0
  {
    if n > 0 {
      RangeCount(n - 1);
      assert Range(n) == Range(n - 1) + [n - 1];
    }
  }

  /** When every node lies in the subtree of the root, the preorder from the root lists every node once. */
  lemma PreorderCoversAll(t: RunTree)
    requires ValidTree(t) && forall i :: 0 <= i < |t.nodes| ==> Descends(t, i, t.root)
    ensures |Preorder(t, t.root)| == |t.nodes|
  {
    var p := Preorder(t, t.root);
    PreorderOncePerNode(t, t.root);
    RangeCount(|t.nodes|);
    assert multiset(p) == multiset(Range(|t.nodes|));
    assert |p| == |multiset(p)| == |multiset(Range(|t.nodes|))| == |t.nodes|;
  }

  /** Both traversals visit the same nodes, as often. */
  lemma {:induction false} PostorderPermutesPreorder(t: RunTree, v: nat)
    requires ValidTree(t) && v < |t.nodes|
    ensures multiset(Postorder(t, v)) == multiset(Preorder(t, v))
    decreases |t.nodes| - v, 1, 0
  {
    PostorderFromPermutes(t, v, 0);
  }

  lemma {:induction false} PostorderFromPermutes(t: RunTree, v: nat, m: nat)
    requires ValidTree(t) && v < |t.nodes| && m <= |t.nodes[v].children|
    ensures multiset(PostorderFrom(t, v, m)) == multiset(PreorderFrom(t, v, m))
    decreases |t.nodes| - v, 0, |t.nodes[v].children| - m
  {
    var cs := t.nodes[v].children;
    if m < |cs| {
      PostorderPermutesPreorder(t, cs[m]);
      PostorderFromPermutes(t, v, m + 1);
    }
  }

  /** `postorder_map` also returns one entry per node of the tree. */
  lemma PostorderOncePerNode(t: RunTree, v: nat)
    requires ValidTree(t) && v < |t.nodes|
    ensures forall x: nat :: multiset(Postorder(t, v))[x] == if x < |t.nodes| && Descends(t, x, v) then 1 else 0
  {
    PostorderPermutesPreorder(t, v);
    PreorderOncePerNode(t, v);
  }

  /** `fn` applied to each listed node, in order. */
  function MapNodes<R>(fn: nat --> R, xs: seq<nat>): (r: seq<R>)
    requires forall i :: 0 <= i < |xs| ==> fn.requires(xs[i])
    ensures |r| == |xs| && forall i :: 0 <= i < |xs| ==> r[i] == fn(xs[i])
  {
    if |xs| == 0 then [] else [fn(xs[0])] + MapNodes(fn, xs[1..])
  }

  lemma MapNodesAppend<R>(fn: nat --> R, a: seq<nat>, b: seq<nat>)
    requires forall i :: 0 <= i < |a| ==> fn.requires(a[i])
    requires forall i :: 0 <= i < |b| ==> fn.requires(b[i])
    ensures MapNodes(fn, a + b) == MapNodes(fn, a) + MapNodes(fn, b)
  {
    assert forall i :: 0 <= i < |a + b| ==> fn.requires((a + b)[i]);
  }

  /** One child's subtree moves from the pending part of the preorder to the accumulated part. */
  lemma PreorderStep<R>(t: RunTree, fn: nat --> R, v: nat, m: nat, result: seq<R>, whole: seq<R>)
    requires ValidTree(t) && v < |t.nodes| && forall i :: 0 <= i < |t.nodes| ==> fn.requires(i)
    requires m < |t.nodes[v].children|
    requires result + MapNodes(fn, PreorderFrom(t, v, m)) == whole
    ensures (result + MapNodes(fn, Preorder(t, t.nodes[v].children[m]))) + MapNodes(fn, PreorderFrom(t, v, m + 1)) == whole
  {
    var a := Preorder(t, t.nodes[v].children[m]);
    var b := PreorderFrom(t, v, m + 1);
    MapNodesAppend(fn, a, b);
    assert result + MapNodes(fn, a + b) == (result + MapNodes(fn, a)) + MapNodes(fn, b);
  }

  /** The results for the subtrees of the children of `v` from the `m`-th on complete `result` to `front`. */
  ghost predicate ChildrenRemain<R>(t: RunTree, fn: nat --> R, v: nat, m: nat, result: seq<R>, front: seq<R>)
    requires ValidTree(t) && v < |t.nodes| && forall i :: 0 <= i < |t.nodes| ==> fn.requires(i)
    requires m <= |t.nodes[v].children|
  {
    result + MapNodes(fn, PostorderFrom(t, v, m)) == front
  }

  lemma PostorderStep<R>(t: RunTree, fn: nat --> R, v: nat, m: nat, result: seq<R>, front: seq<R>)
    requires ValidTree(t) && v < |t.nodes| && forall i :: 0 <= i < |t.nodes| ==> fn.requires(i)
    requires m < |t.nodes[v].children| && ChildrenRemain(t, fn, v, m, result, front)
    ensures ChildrenRemain(t, fn, v, m + 1, result + MapNodes(fn, Postorder(t, t.nodes[v].children[m])), front)
  {
    var a := Postorder(t, t.nodes[v].children[m]);
    var b := PostorderFrom(t, v, m + 1);
    MapNodesAppend(fn, a, b);
    assert result + MapNodes(fn, a + b) == (result + MapNodes(fn, a)) + MapNodes(fn, b);
  }

  lemma PostorderChildrenDone<R>(t: RunTree, fn: nat --> R, v: nat, result: seq<R>, front: seq<R>)
    requires ValidTree(t) && v < |t.nodes| && forall i :: 0 <= i < |t.nodes| ==> fn.requires(i)
    requires ChildrenRemain(t, fn, v, |t.nodes[v].children|, result, front)
    ensures result == front
  {
    assert MapNodes(fn, PostorderFrom(t, v, |t.nodes[v].children|)) == [];
  }

  lemma PreorderStart<R>(t: RunTree, fn: nat --> R, v: nat, acc: seq<R>)
    requires ValidTree(t) && v < |t.nodes| && forall i :: 0 <= i < |t.nodes| ==> fn.requires(i)
    ensures (acc + [fn(v)]) + MapNodes(fn, PreorderFrom(t, v, 0)) == acc + MapNodes(fn, Preorder(t, v))
  {
    MapNodesAppend(fn, [v], PreorderFrom(t, v, 0));
  }

  lemma PostorderStart<R>(t: RunTree, fn: nat --> R, v: nat, acc: seq<R>)
    requires ValidTree(t) && v < |t.nodes| && forall i :: 0 <= i < |t.nodes| ==> fn.requires(i)
    ensures (acc + MapNodes(fn, PostorderFrom(t, v, 0))) + [fn(v)] == acc + MapNodes(fn, Postorder(t, v))
  {
    MapNodesAppend(fn, PostorderFrom(t, v, 0), [v]);
  }

  /** `preorder_map`: `fn` of every node of the tree, the root first, then each child's subtree in child order. */
  method PreorderMap<R>(t: RunTree, fn: nat --> R) returns (result: seq<R>)
    requires ValidTree(t) && forall i :: 0 <= i < |t.nodes| ==> fn.requires(i)
    ensures result == MapNodes(fn, Preorder(t, t.root))
  {
    result := PreorderDescent(t, fn, t.root, []);
  }

  /** The nested `descent` of `preorder_map`, appending to the captured `result`. */
  method PreorderDescent<R>(t: RunTree, fn: nat --> R, v: nat, acc: seq<R>) returns (result: seq<R>)
    requires ValidTree(t) && v < |t.nodes| && forall i :: 0 <= i < |t.nodes| ==> fn.requires(i)
    ensures result == acc + MapNodes(fn, Preorder(t, v))
    decreases |t.nodes| - v
  {
    result := acc + [fn(v)];
    var cs := t.nodes[v].children;
    ghost var whole := acc + MapNodes(fn, Preorder(t, v));
    PreorderStart(t, fn, v, acc);
    var m := 0;
    while m < |cs|
      invariant m <= |cs|
      invariant result + MapNodes(fn, PreorderFrom(t, v, m)) == whole
    {
      PreorderStep(t, fn, v, m, result, whole);
      result := PreorderDescent(t, fn, cs[m], result);
      m := m + 1;
    }
    assert PreorderFrom(t, v, m) == [];
    assert MapNodes(fn, PreorderFrom(t, v, m)) == [];
  }

  /** `postorder_map`: `fn` of every node of the tree, each child's subtree in child order first, the root last. */
  method PostorderMap<R>(t: RunTree, fn: nat --> R) returns (result: seq<R>)
    requires ValidTree(t) && forall i :: 0 <= i < |t.nodes| ==> fn.requires(i)
    ensures result == MapNodes(fn, Postorder(t, t.root))
  {
    result := PostorderDescent(t, fn, t.root, []);
  }

  /** The nested `descent` of `postorder_map`: the children's subtrees first, then the node itself. */
  method PostorderDescent<R>(t: RunTree, fn: nat --> R, v: nat, acc: seq<R>) returns (result: seq<R>)
    requires ValidTree(t) && v < |t.nodes| && forall i :: 0 <= i < |t.nodes| ==> fn.requires(i)
    ensures result == acc + MapNodes(fn, Postorder(t, v))
    decreases |t.nodes| - v, 1
  {
    result := PostorderChildren(t, fn, v, acc);
    PostorderStart(t, fn, v, acc);
    result := result + [fn(v)];
  }

  /** The loop of `descent` over the children of `v`, in child order. */
  method PostorderChildren<R>(t: RunTree, fn: nat --> R, v: nat, acc: seq<R>) returns (result: seq<R>)
    requires ValidTree(t) && v < |t.nodes| && forall i :: 0 <= i < |t.nodes| ==> fn.requires(i)
    ensures result == acc + MapNodes(fn, PostorderFrom(t, v, 0))
    decreases |t.nodes| - v, 0
  {
    result := acc;
    var cs := t.nodes[v].children;
    ghost var front := acc + MapNodes(fn, PostorderFrom(t, v, 0));
    var m := 0;
    while m < |cs|
      invariant m <= |cs|
      invariant ChildrenRemain(t, fn, v, m, result, front)
    {
      PostorderStep(t, fn, v, m, result, front);
      result := PostorderDescent(t, fn, cs[m], result);
      m := m + 1;
    }
    PostorderChildrenDone(t, fn, v, result, front);
  }
}

=== FILE: wrappers.dfy ===
/** Option and Result: the absent value and the error path of the model. */
module Wrappers {

  datatype Option<+T> = None | Some(value: T)

  datatype Result<+T, +E> = Ok(value: T) | Err(error: E)
}
